=== FILE: README.md ===
# Blog server procedures, modelled in Dafny

This project models the server side of a small blogging application. That is
the tRPC procedures of the post, user and tag routers, together with the form
validators they reuse and the list rules of the post-writing form. Each
procedure is a pure function over an immutable store of relational tables:
users, posts, tags, co-author rows, likes, bookmarks, comments and follow
edges. It returns a `Step`, which pairs either a result or an error code
with the store the procedure leaves behind.

Conventions of the model:

- Tables are sequences in row order. Follow edges are a set, because
  `followUser` and `unfollowUser` write them with `connect` and
  `disconnect`. Co-author rows are a set keyed by the (post, user) pair:
  `addAuthor` writes one with `create`, and `removerAuthor` removes it with
  `deleteMany`.
- The behaviour of the database client is made explicit.
  - A duplicate unique key gives `UniqueViolation`.
  - Deleting, updating or connecting a missing row gives `RecordNotFound`.
  - Creating a row whose reference is missing gives `ForeignKeyViolation`.
  - `cursor` starts at the cursor row, inclusively.
  - `take n` keeps a prefix.
- Fresh ids and the clock are parameters, and so are `slugify`, the URL
  check, the data-URI check and the object-store upload.
- The session user is the `actor` parameter.
- `Store.Valid` collects the schema's integrity constraints: unique keys,
  resolving references, and no self-follow. The `…KeepsValid` lemmas prove
  that every mutation preserves it.

Modules:

- `Outcomes` holds the result and error types.
- `Seqs` holds the list helpers: filter, take, find, update-where and a
  stable descending sort.
- `Store` holds the tables and the integrity constraints.
- `WriteForm` and `TagForm` hold the validators.
- `Pagination` holds the feed.
- `PostRouter` and `PostIntegrity` hold the post procedures and their
  preservation proofs.
- `UserRouter` holds the avatar upload and the social graph.
- `Suggestions` holds the suggestion query.
- `TagRouter` holds the tag procedures.
- `PostAuthorization` holds the authorization findings.
- `Scenarios` holds a worked example of the suggestion walk-through.

## Model

| member | source | states |
|---|---|---|
| WriteForm.Issues | src/components/WriteFormModal/index.tsx:28-33 | A field is reported exactly when it is too short: title under 10, description under 60, html under 100 characters, and text only when present and under 100. Reports come in field order. |
| WriteForm.AcceptsIff | src/components/WriteFormModal/index.tsx:28-33 | The schema accepts a form if and only if every length bound holds, and an absent text is accepted. |
| WriteForm.Submit | src/components/WriteFormModal/index.tsx:61-66 | The form is passed on unchanged. `tagsIds` is attached exactly when at least one tag is selected, and then lists the selected ids in order. |
| WriteForm.RemoveSelected | src/components/WriteFormModal/index.tsx:107-110 | Removing a chip drops every entry with that id and keeps every other entry with its multiplicity. |
| WriteForm.RemoveSelectedAppend | src/components/WriteFormModal/index.tsx:107-110 | Chip removal works piecewise over concatenation, so the kept entries stay in their original order. |
| WriteForm.RemoveSelectedAbsent | src/components/WriteFormModal/index.tsx:107-110 | Removing an id that no entry carries leaves the list unchanged. |
| WriteForm.RemoveSelectedIdempotent | src/components/WriteFormModal/index.tsx:107-110 | Removing the same chip twice has the effect of removing it once. |
| TagForm.Issues | src/components/TagForm/index.tsx:9-12 | The name is reported exactly when it is under 3 characters, and the description exactly when it is under 10. |
| TagForm.AcceptsIff | src/components/TagForm/index.tsx:9-12 | The tag schema accepts if and only if both minimum lengths hold. |
| Store.FindPost | src/server/trpc/router/post.ts:103-111 | A lookup by id finds a row with that id exactly when the id is in the posts table. |
| Seqs.SortDesc | src/server/trpc/router/post.ts:236-238 | `orderBy createdAt desc` returns a permutation of the rows, sorted newest first. |
| Seqs.TakeOfSortedIsTop | src/server/trpc/router/post.ts:466-469 | `take n` after a descending order keeps rows that outrank every row it leaves out. |
| Pagination.Feed | src/server/trpc/router/post.ts:235-238 | The ordered feed holds exactly the stored posts, newest first. |
| Pagination.FeedDistinct | src/server/trpc/router/post.ts:235-238 | In a valid store, no post id repeats in the feed. |
| Pagination.StartIndex | src/server/trpc/router/post.ts:272 | An absent or empty-string cursor starts the read at the top of the feed. A non-empty cursor starts at the first row with that id, or past the end when no row has it. |
| Pagination.PageOf | src/server/trpc/router/post.ts:272-280 | A page holds at most 10 posts, taken as a prefix of the rows from the cursor on. `nextCursor` is present exactly when more than 10 rows remain, and then it is the id of the 11th row. Without it, the page is the whole rest of the feed. |
| Pagination.GetPosts | src/server/trpc/router/post.ts:228-281 | A page is the prefix of the ordered feed from the cursor on: at most 10 stored posts, newest first, and the whole rest of the feed when `nextCursor` is absent, or exactly 10 posts when it is present. `nextCursor` is present exactly when the query yields 11 rows, and is the 11th row's id. A known cursor makes the page start at that post. An unknown cursor gives an empty page. |
| Pagination.FeedMembers | src/server/trpc/router/post.ts:235-238 | A post is in the feed if and only if it is stored. |
| Pagination.PageInFeed | src/server/trpc/router/post.ts:272-280 | Every post of a page is stored, and the page is sorted newest first. |
| Pagination.CursorFound | src/server/trpc/router/post.ts:272 | A non-empty cursor naming a stored post positions the page on that post. |
| Pagination.CursorMissing | src/server/trpc/router/post.ts:272 | A non-empty cursor naming no stored post positions the page past the end. |
| Pagination.NextPageStartsAfter | src/server/trpc/router/post.ts:275-279 | When ids are distinct and non-empty, the page at `nextCursor` starts exactly 10 rows after the current one. |
| Pagination.Scroll | src/components/MainSection/index.tsx:11-16 | Following `nextCursor` until it is absent yields every row from the starting cursor on. |
| Pagination.ChainedPagesCoverFeed | src/server/trpc/router/post.ts:228-281 | From no cursor, the chained pages concatenate to the whole feed, with no gap and no repeat, sorted newest first. |
| Pagination.EmptyCursorRestarts | src/server/trpc/router/post.ts:272 | An empty-string cursor gives the same page as no cursor. |
| Pagination.EmptyIdCursorRestarts | src/server/trpc/router/post.ts:272-279 | When the 11th row's id is the empty string, the next cursor is that empty string, and the next request returns the first page again. |
| PostRouter.CanEdit | src/server/trpc/router/post.ts:113-123 | The ownership guard holds only when the post exists and the caller is its author or a co-author, so a missing post fails it. With unique post ids it is equivalent to some stored post with that id having the caller as author or co-author. |
| PostRouter.TagSet | src/server/trpc/router/post.ts:14-20 | An absent `tagsIds` means no tags. Otherwise the tag set is exactly the listed ids. |
| PostRouter.CreatePost | src/server/trpc/router/post.ts:10-48 | A form the schema rejects gives an input error. Otherwise the call succeeds exactly when the id and `slugify(title)` are free, the session user exists and every listed tag exists. It then appends one post with the session user as author, the slug `slugify(title)`, the submitted fields and exactly the listed tags. |
| PostRouter.AddAuthor | src/server/trpc/router/post.ts:50-66 | A new co-author row is inserted exactly when it is not there yet and both the post and the user exist. It is returned. |
| PostRouter.RemoverAuthor | src/server/trpc/router/post.ts:68-91 | The procedure never raises. On success the (post, user) co-author row is gone and nothing else changes. A store failure returns `success = false` with the store untouched. |
| PostRouter.UpdatePostFeaturedImage | src/server/trpc/router/post.ts:93-134 | A non-URL gives an input error. A caller who is neither the author nor a co-author gets FORBIDDEN, and so does a caller of a missing post. Both leave the store untouched. Otherwise only that post's `featuredImage` changes. |
| PostRouter.UpdatePost | src/server/trpc/router/post.ts:150-226 | A caller who is neither the author nor a co-author, or a caller of a missing post, gets FORBIDDEN with the store untouched. On success the post's tag set is exactly the submitted ids, title, description and html are replaced, and the other posts are untouched. An unknown tag fails after the old tags were already cleared. |
| PostRouter.WithoutPost | src/server/trpc/router/post.ts:143-147 | Deleting a post removes it together with its co-author rows, likes, bookmarks and comments. Users, tags and follows are untouched. |
| PostRouter.DeletePost | src/server/trpc/router/post.ts:136-148 | The call succeeds exactly when the post exists, and it then cascades. A missing post gives `RecordNotFound` with the store untouched. |
| PostRouter.LikePost | src/server/trpc/router/post.ts:318-331 | Afterwards (session user, post) is liked. A repeated like gives `UniqueViolation`. Every other (user, post) pair and every other table is unchanged. |
| PostRouter.DislikePost | src/server/trpc/router/post.ts:333-348 | Afterwards the pair is not liked. A missing like gives `RecordNotFound`. Every other pair is unchanged. |
| PostRouter.BookmarkPost | src/server/trpc/router/post.ts:373-386 | Afterwards the pair is bookmarked and stamped with the current time. A repeated bookmark gives `UniqueViolation`. Every other pair is unchanged. |
| PostRouter.RemoveBookmark | src/server/trpc/router/post.ts:388-403 | Afterwards the pair is not bookmarked. A missing bookmark gives `RecordNotFound`. Every other pair is unchanged. |
| PostRouter.SubmitComment | src/server/trpc/router/post.ts:405-428 | Text under 3 characters is rejected. Otherwise one comment by the session user is appended, provided the user and the post exist and the id is fresh. |
| PostRouter.GetComments | src/server/trpc/router/post.ts:430-458 | Returns exactly the post's comments, each with its multiplicity, newest first. |
| PostRouter.GetReadingList | src/server/trpc/router/post.ts:460-491 | Returns at most 4 bookmarks, all the session user's own, newest first, with no row repeated beyond its count among the user's bookmarks. It returns all of them when there are fewer than 4, and no omitted bookmark is newer than a returned one. The same query backs `getUserReadingList` (src/server/trpc/router/user.ts:111-118). |
| PostRouter.ReadingListIsNewest | src/server/trpc/router/post.ts:462-469 | The sorted own-bookmark list holds exactly the user's bookmarks, and its first 4 outrank the rest. |
| PostRouter.DislikeUndoesLike | src/server/trpc/router/post.ts:318-348 | A successful like followed by a dislike restores the original store. |
| PostRouter.RemoveBookmarkUndoesBookmark | src/server/trpc/router/post.ts:373-403 | A successful bookmark followed by its removal restores the original store. |
| PostRouter.DeletedPostHasNoComments | src/server/trpc/router/post.ts:136-148 | After a delete, the post is gone and no comment resolves to it. |
| PostIntegrity.RewritePostsKeepsValid | src/server/trpc/router/post.ts:125-132 | Rewriting one post while keeping its id, slug and author, with tags among the existing ones, keeps the store valid and its post ids unchanged. |
| PostIntegrity.CreatePostKeepsValid | src/server/trpc/router/post.ts:29-46 | `createPost` preserves the integrity constraints. |
| PostIntegrity.AddAuthorKeepsValid | src/server/trpc/router/post.ts:58-63 | `addAuthor` preserves the integrity constraints. |
| PostIntegrity.RemoverAuthorKeepsValid | src/server/trpc/router/post.ts:76-90 | `removerAuthor` preserves the integrity constraints. |
| PostIntegrity.UpdatePostFeaturedImageKeepsValid | src/server/trpc/router/post.ts:125-132 | `updatePostFeaturedImage` preserves the integrity constraints. |
| PostIntegrity.UpdatePostKeepsValid | src/server/trpc/router/post.ts:194-224 | `updatePost` preserves the integrity constraints, on its error path too. |
| PostIntegrity.DeletePostKeepsValid | src/server/trpc/router/post.ts:143-147 | The cascading delete preserves the integrity constraints. |
| PostIntegrity.LikePostKeepsValid | src/server/trpc/router/post.ts:325-330 | `likePost` preserves the integrity constraints. |
| PostIntegrity.ShrinkLikesKeepsValid | src/server/trpc/router/post.ts:340-347 | Dropping like rows keeps the store valid. |
| PostIntegrity.ShrinkBookmarksKeepsValid | src/server/trpc/router/post.ts:395-402 | Dropping bookmark rows keeps the store valid. |
| PostIntegrity.DislikePostKeepsValid | src/server/trpc/router/post.ts:340-347 | `dislikePost` preserves the integrity constraints. |
| PostIntegrity.BookmarkPostKeepsValid | src/server/trpc/router/post.ts:380-385 | `bookmarkPost` preserves the integrity constraints. |
| PostIntegrity.RemoveBookmarkKeepsValid | src/server/trpc/router/post.ts:395-402 | `removeBookmark` preserves the integrity constraints. |
| PostIntegrity.SubmitCommentKeepsValid | src/server/trpc/router/post.ts:413-427 | `submitComment` preserves the integrity constraints. |
| UserRouter.FirstLineLength | src/server/trpc/router/user.ts:30 | Gives the length of the first line: no line terminator occurs before it, and a terminator, if any, follows it. |
| UserRouter.LastComma | src/server/trpc/router/user.ts:30 | Finds the last comma at a position of at least 1 before the bound, or reports that there is none. |
| UserRouter.AvatarPayload | src/server/trpc/router/user.ts:30 | `replace(/^.+,/, "")` keeps a suffix of its input. The input is unchanged exactly when the first line has no comma after its first character. Otherwise the result is what follows the last such comma. |
| UserRouter.SingleCommaPayload | src/server/trpc/router/user.ts:30 | For a one-line header without commas, followed by a comma and a comma-free payload, the payload is returned exactly. |
| UserRouter.NoCommaUnchanged | src/server/trpc/router/user.ts:30 | Input without a comma is returned unchanged. |
| UserRouter.LeadingCommaKept | src/server/trpc/router/user.ts:30 | A comma in first position is not stripped, because `.+` needs one character before it. |
| UserRouter.UploadAvatar | src/server/trpc/router/user.ts:13-58 | A non-data-URI gives an input error. A failed upload gives an internal error. On success, only the session user's `image` becomes the uploaded URL. |
| UserRouter.FollowUser | src/server/trpc/router/user.ts:267-295 | Following oneself gives BAD_REQUEST with no edge added. Otherwise, when both users exist, the edge actor to target is present afterwards and every other edge is unchanged. |
| UserRouter.UnfollowUser | src/server/trpc/router/user.ts:297-319 | Removes only the edge actor to target. It fails only when the session user is missing. |
| UserRouter.FollowAgainIsNoOp | src/server/trpc/router/user.ts:282-293 | Re-following an already followed user leaves the store identical. |
| UserRouter.UnfollowUndoesFollow | src/server/trpc/router/user.ts:267-319 | Unfollow after a follow that added an edge restores the original store. |
| UserRouter.FollowUserKeepsValid | src/server/trpc/router/user.ts:276-293 | `followUser` preserves the integrity constraints, including no self-follow. |
| UserRouter.UnfollowUserKeepsValid | src/server/trpc/router/user.ts:306-317 | `unfollowUser` preserves the integrity constraints. |
| UserRouter.ReplaceUsersKeepsValid | src/server/trpc/router/user.ts:50-57 | Rewriting user rows while keeping the same distinct ids keeps the store valid. |
| UserRouter.UploadAvatarKeepsValid | src/server/trpc/router/user.ts:50-57 | The avatar update preserves the integrity constraints. |
| Suggestions.NamesOf | src/server/trpc/router/user.ts:210-215 | A name is listed exactly when some tag with that name is among the given tag ids. |
| Suggestions.InterestedTags | src/server/trpc/router/user.ts:208-215 | The interest list holds exactly the tag names of the sampled liked posts and the sampled bookmarked posts, with the names from the likes first. |
| Suggestions.Candidates | src/server/trpc/router/user.ts:217-254 | A user passes the `where` clause exactly when it is not the viewer and has liked or bookmarked a post carrying a tag named in the list. |
| Suggestions.SuggestionsSound | src/server/trpc/router/user.ts:217-262 | Every admissible answer has at most 4 users. None of them is the viewer, and each one engaged with a post carrying an interesting tag. |
| Suggestions.NoInterestNoSuggestions | src/server/trpc/router/user.ts:219-250 | An empty interest list admits no suggestion. |
| Suggestions.CandidatesDependOnNameSet | src/server/trpc/router/user.ts:219-250 | Lists with the same names select the same users, so duplicates and order in the interest list do not matter. |
| Suggestions.LikeTagNamesMembers | src/server/trpc/router/user.ts:210-212 | A name is collected from likes exactly when it names a tag of a liked post in the sample. |
| Suggestions.BookmarkTagNamesMembers | src/server/trpc/router/user.ts:213-215 | A name is collected from bookmarks exactly when it names a tag of a bookmarked post in the sample. |
| Suggestions.InterestedTagsMembers | src/server/trpc/router/user.ts:188-215 | The interest list holds exactly the tag names of the sampled liked posts and the sampled bookmarked posts. |
| Suggestions.NoHistoryNoSuggestions | src/server/trpc/router/user.ts:184-265 | A viewer with no likes and no bookmarks is suggested nobody. |
| Suggestions.GetSuggestions | src/server/trpc/router/user.ts:184-265 | The chosen answer has at most 4 stored users, none of them the viewer, each engaged with an interesting tag. |
| Suggestions.TakeIsSample | src/server/trpc/router/user.ts:203 | A prefix of distinct rows is an admissible answer to an unordered `take`. |
| Suggestions.GetSuggestionsAdmissible | src/server/trpc/router/user.ts:203-261 | In a valid store, the chosen samples of likes, bookmarks and users are each answers the query may return. |
| Scenarios.StartContents | src/server/trpc/router/post.ts:29-46 | In the worked example, `createPost` and then `likePost` both succeed, and leave exactly the new post and the one like. |
| Scenarios.NoSuggestionWithoutInterest | src/server/trpc/router/user.ts:184-265 | In the worked example, the author is suggested nobody before engaging with any post. |
| Scenarios.BookmarkStep | src/server/trpc/router/post.ts:373-386 | In the worked example, the author's bookmark of their own post succeeds and leaves the store with that one bookmark added. |
| Scenarios.InterestAfterBookmark | src/server/trpc/router/user.ts:188-215 | After that bookmark, the author's interest list is exactly the post's tag names, go then rust. The author has no likes to contribute. |
| Scenarios.BobIsCandidate | src/server/trpc/router/user.ts:217-254 | With that interest list, the only user passing the `where` clause is the one who liked the tagged post. |
| Scenarios.BookmarkLeadsToSuggestion | src/server/trpc/router/user.ts:184-265 | Once the author bookmarks their post tagged go and rust, the user who liked it is suggested to the author. |
| TagRouter.CreateTag | src/server/trpc/router/tag.ts:8-28 | Input under the schema's minimum lengths is rejected. A name equal to an existing tag's name gives CONFLICT. Otherwise one tag is appended with the input name and description and the slug `slugify(name)`. Every failure leaves the store untouched. |
| TagRouter.CreateTagAddsOneTag | src/server/trpc/router/tag.ts:11-27 | In a valid store, a successful `createTag` adds exactly one tag and keeps the store valid. At most one tag has any given name. |
| TagRouter.AtMostOneTagNamed | src/server/trpc/router/tag.ts:11-15 | Unique names mean that a lookup by name finds at most one tag. |
| TagRouter.GetPostWithSameTags | src/server/trpc/router/tag.ts:34-83 | Gives null exactly when no tag has the slug. Otherwise it gives exactly the posts that carry that tag. |
| TagRouter.PostsOfTagBySlug | src/server/trpc/router/tag.ts:42-47 | For a stored tag, a lookup by its slug returns the posts carrying it, in table order. |
| PostAuthorization.AddAuthorGrantsEditToAnyone | src/server/trpc/router/post.ts:50-66 | As written, any signed-in user can make themself co-author of any post and then update it. |
| PostAuthorization.RemoverAuthorRevokesForAnyone | src/server/trpc/router/post.ts:68-91 | As written, any caller can strip a co-author's edit rights. |
| PostAuthorization.DeletePostIgnoresCaller | src/server/trpc/router/post.ts:136-148 | As written, the delete succeeds for any caller. |
| PostAuthorization.StrangerDeletesPost | src/server/trpc/router/post.ts:136-148 | Concrete case: a user unrelated to a post deletes it. |
| PostAuthorization.AddAuthorAsOwner | src/server/trpc/router/post.ts:50-66 | With the owner check that the post page applies before offering the action, only the primary author adds co-authors. Any other caller gets FORBIDDEN with the store untouched. |
| PostAuthorization.RemoveAuthorAsOwner | src/server/trpc/router/post.ts:68-91 | With the owner check that the post page applies, only the primary author removes co-authors. |
| PostAuthorization.DeletePostAsAuthor | src/server/trpc/router/post.ts:136-148 | With the owner check that the post page applies to its delete button, the delete succeeds exactly for the primary author. Anyone else gets FORBIDDEN. |
| PostAuthorization.EditRightsGrantedOnlyByAuthor | src/server/trpc/router/post.ts:50-66 | Under the checked version, edit rights are gained only when the primary author grants them, and only by the named user. |
| PostAuthorization.EditRightsRevokedOnlyByAuthor | src/server/trpc/router/post.ts:68-91 | Under the checked version, only the primary author revokes edit rights, only from the named co-author, and never from the primary author. |
| PostAuthorization.PostsDeletedOnlyByAuthor | src/server/trpc/router/post.ts:136-148 | Under the checked version, a post vanishes only when its primary author deletes that very post. |

## Left out

- Network and I/O. This covers the object-store upload, `getPublicUrl`, base64 decoding and logging in `uploadAvatar`; the upload is the `upload` parameter, which returns a URL or nothing.
- Foreign libraries. `slugify`, the data-URI check, the URL check of the zod schema and the clock are parameters. Fresh ids are parameters too.
- Session and middleware. The tRPC context and the session/`protectedProcedure` wiring are not part of this model. The session user is the `actor` parameter, and it is assumed to be present.
- Projection-only queries: `getPost`, `getLikes`, `getCurrentUser`, the profile, follower and following listings, and `getTags`. They only select fields by key, or, for `getTags`, return the whole tag table unchanged. The field selection of `getPosts`, `getComments` and `getReadingList` is also dropped, because the model returns whole rows.
- `getUserReadingList` (src/server/trpc/router/user.ts:109-140) runs the same query as `getReadingList`: the session user's bookmarks, newest first, at most 4. `PostRouter.GetReadingList` models both. Only the projection differs: `include` returns every bookmark column where `select` returns the id. Field selection is dropped.
- Atomicity and concurrency. Each procedure is one step. `updatePost` is the exception: its two separate updates are kept, so an unknown tag leaves the post with its tags already cleared.
- Row order on ties. Posts, comments and bookmarks with equal `createdAt` keep table order. The database may return ties in any order.
- The unordered `take 10` of likes and bookmarks and the unordered `take 4` of users in the suggestion query are described by `Suggestions.IsSample`, and one admissible choice is computed.
- Suggestions.GetSuggestions: computes only the table-order choice among the admissible answers; `Suggestions.SuggestionsSound` covers every admissible answer.
- String lengths count `char`s. JavaScript counts UTF-16 code units, so the two differ for characters outside the Basic Multilingual Plane.
- `UserRouter.UploadAvatar` uploads to a path built from the `username` input and not from the session user, so one user can overwrite another's avatar object. The object store is outside the model, so this is only recorded through `AvatarPath`.
- The database schema is not part of this model. Deleting a post is modelled as cascading to its co-author rows, likes, bookmarks and comments. The co-author table is modelled with the (post, user) pair as its key.
- UI rendering, modals, the infinite-scroll widget, debouncing and the photo-search router are outside the model.

- Pagination.ChainedPagesCoverFeed: assumes every post id is non-empty. `Store.Valid` does not carry this, and `PostRouter.CreatePost` takes the fresh id as a parameter and accepts any id. Post ids are generated by the database's default id function, which never yields an empty string. The lemma `Pagination.EmptyIdCursorRestarts` shows what breaks otherwise: an empty id as the next cursor is falsy, and the feed starts again from the top.
- `updatePost` applies no length validation. Only `createPost` reuses the form schema, and the model follows the code.

## Findings

| source | as written | input that shows it | evidently intended | confidence | as-written member | corrected member |
|---|---|---|---|---|---|---|
| src/server/trpc/router/post.ts:50-66 | `addAuthor` inserts the co-author row for any signed-in caller | a user with no rights on post P calls `addAuthor(P, self)` and then `updatePost(P, …)` succeeds | only the primary author may add co-authors, as the post page offers it only to them | high (not executed) | PostAuthorization.AddAuthorGrantsEditToAnyone | PostAuthorization.AddAuthorAsOwner |
| src/server/trpc/router/post.ts:68-91 | `removerAuthor` deletes co-author rows for any signed-in caller | any user calls `removerAuthor(P, c)` for a co-author c of P, and c loses edit rights | only the primary author may remove co-authors | high (not executed) | PostAuthorization.RemoverAuthorRevokesForAnyone | PostAuthorization.RemoveAuthorAsOwner |
| src/server/trpc/router/post.ts:136-148 | `deletePost` deletes by id with no check of the caller | mallory calls `deletePost` on alice's post, and the post is gone | only the primary author may delete, as the page shows the button only to them | high (not executed) | PostAuthorization.StrangerDeletesPost | PostAuthorization.DeletePostAsAuthor |

The post page (`src/pages/[slug].tsx`, lines 300-330) offers editing to the
author and co-authors, but offers deleting and adding authors only to the
primary author. The corrected members apply that rule on the server. The
model does not let co-authors manage co-authors, because the page does not.

=== FILE: outcomes.dfy ===
/** Outcome types shared by every procedure of the model: an optional value,
    the error codes a procedure can report, and the pair of a procedure's
    result with the store it leaves behind. */
module Outcomes {

  /** A value that may be absent (a nullable column, an optional input field). */
  datatype Option<+T> = None | Some(value: T)

  /** The faults the relational store itself raises when a statement breaks a
      constraint; the server does not catch them, so they reach the caller as
      an internal error. */
  datatype StoreFault =
    | UniqueViolation      // an insert whose unique key is already present
    | RecordNotFound       // an update/delete/connect whose target row is missing
    | ForeignKeyViolation  // an insert whose referenced row is missing

  /** The error conditions a procedure reports. The first four are the codes
      the procedures raise themselves; InvalidInput is the rejection of an
      input schema before the procedure body runs. */
  datatype ErrorCode =
    | BadRequest
    | Forbidden
    | Conflict
    | InternalServerError
    | InvalidInput
    | StoreFailure(fault: StoreFault)

  datatype Result<+T> = Ok(value: T) | Err(error: ErrorCode)

  /** What a mutating procedure returns: its result and the store after it ran.
      A failed procedure normally leaves the store as it was, but a procedure
      made of several statements keeps the effect of the statements that ran
      before the failing one. */
  datatype Step<+T, +S> = Step(result: Result<T>, store: S)
}

=== FILE: pagination.dfy ===
/** Cursor pagination of the post feed: the page a single request returns,
    and the concatenation of pages an infinite-scroll client obtains by
    feeding each page's `nextCursor` into the next request. */
module Pagination {
  import opened Outcomes
  import opened Seqs
  import opened Store

  /** Page size of the feed. */
  const Limit: nat := 10

  datatype Page = Page(posts: seq<Post>, nextCursor: Option<PostId>)

  /** Every post, newest first (`orderBy: {createdAt: "desc"}`). */
  function Feed(s: Store): (r: seq<Post>)
    ensures multiset(r) == multiset(s.posts)
    ensures SortedDesc(r, PostCreatedAt)
  {
    SortDesc(s.posts, PostCreatedAt)
  }

  /** Ordering the feed keeps post ids unique. */
  lemma FeedDistinct(s: Store)
    requires Valid(s)
    ensures DistinctBy(Feed(s), PostKey)
  {
    SortDescDistinct(s.posts, PostCreatedAt, PostKey);
  }

  /** Where the store starts reading: the feed start when the cursor is
      absent or the empty string (both falsy, so no cursor is passed), the
      cursor row itself when it exists, and past the end when it does not. */
  function StartIndex(feed: seq<Post>, cursor: Option<string>): (i: nat)
    ensures i <= |feed|
    ensures cursor.None? || cursor == Some("") ==> i == 0
    ensures cursor.Some? && cursor.value != "" ==>
      (i < |feed| <==> exists k :: 0 <= k < |feed| && feed[k].id == cursor.value)
    ensures cursor.Some? && cursor.value != "" && i < |feed| ==> feed[i].id == cursor.value
    ensures cursor.Some? && cursor.value != "" ==> forall k :: 0 <= k < i ==> feed[k].id != cursor.value
  {
    match cursor
    case None => 0
    case Some(c) =>
      if c == "" then 0
      else match IndexWhere(feed, (p: Post) => p.id == c)
        case None => |feed|
        case Some(k) => k
  }

  /** The rows the store yields from the cursor position on, in feed order. */
  function FromCursor(feed: seq<Post>, cursor: Option<string>): seq<Post> {
    feed[StartIndex(feed, cursor)..]
  }

  /** One request: read `Limit + 1` rows from the cursor, and if the extra
      row came back, drop it from the page and hand out its id as the next
      cursor. */
  function PageOf(feed: seq<Post>, cursor: Option<string>): (r: Page)
    ensures |r.posts| <= Limit && |r.posts| <= |FromCursor(feed, cursor)|
    ensures r.posts == FromCursor(feed, cursor)[..|r.posts|]
    ensures r.nextCursor.Some? <==> |FromCursor(feed, cursor)| > Limit
    ensures r.nextCursor.Some? ==>
      |r.posts| == Limit && r.nextCursor.value == FromCursor(feed, cursor)[Limit].id
    ensures r.nextCursor.None? ==> r.posts == FromCursor(feed, cursor)
  {
    var rows := Take(FromCursor(feed, cursor), Limit + 1);
    if |rows| > Limit then Page(rows[..Limit], Some(rows[Limit].id))
    else Page(rows, None)
  }

  /** The feed procedure: one page of the feed. */
  function GetPosts(s: Store, cursor: Option<string>): (r: Page)
    ensures |r.posts| <= Limit && |r.posts| <= |FromCursor(Feed(s), cursor)|
    ensures r.posts == FromCursor(Feed(s), cursor)[..|r.posts|]
    ensures r.nextCursor.None? ==> r.posts == FromCursor(Feed(s), cursor)
    ensures r.nextCursor.Some? ==> |r.posts| == Limit
    ensures SortedDesc(r.posts, PostCreatedAt)
    ensures forall p :: p in r.posts ==> p in s.posts
    ensures r.nextCursor.Some? <==> |FromCursor(Feed(s), cursor)| >= Limit + 1
    ensures r.nextCursor.Some? ==> r.nextCursor.value == FromCursor(Feed(s), cursor)[Limit].id
    ensures cursor.Some? && cursor.value != "" && cursor.value in PostIds(s) ==>
      r.posts != [] && r.posts[0].id == cursor.value
    ensures cursor.Some? && cursor.value != "" && cursor.value !in PostIds(s) ==>
      r.posts == [] && r.nextCursor.None?
  {
    PageInFeed(s, cursor);
    PageOf(Feed(s), cursor)
  }

  lemma FeedMembers(s: Store)
    ensures forall p :: p in Feed(s) <==> p in s.posts
  {
    forall p ensures p in Feed(s) <==> p in s.posts {
      assert p in Feed(s) <==> p in multiset(Feed(s));
    }
  }

  lemma PageInFeed(s: Store, cursor: Option<string>)
    ensures var r := PageOf(Feed(s), cursor);
      && SortedDesc(r.posts, PostCreatedAt)
      && (forall p :: p in r.posts ==> p in s.posts)
      && (cursor.Some? && cursor.value != "" && cursor.value in PostIds(s) ==>
            r.posts != [] && r.posts[0].id == cursor.value)
      && (cursor.Some? && cursor.value != "" && cursor.value !in PostIds(s) ==>
            r.posts == [] && r.nextCursor.None?)
  {
    var feed := Feed(s);
    var r := PageOf(feed, cursor);
    var i := StartIndex(feed, cursor);
    assert forall k :: 0 <= k < |r.posts| ==> r.posts[k] == feed[i + k];
    FeedMembers(s);
    if cursor.Some? && cursor.value != "" {
      if cursor.value in PostIds(s) {
        CursorFound(s, cursor.value);
      } else {
        CursorMissing(s, cursor.value);
      }
    }
  }

  lemma CursorFound(s: Store, c: string)
    requires c != "" && c in PostIds(s)
    ensures StartIndex(Feed(s), Some(c)) < |Feed(s)|
    ensures Feed(s)[StartIndex(Feed(s), Some(c))].id == c
  {
    FeedMembers(s);
    var q :| q in s.posts && q.id == c;
    assert q in Feed(s);
  }

  lemma CursorMissing(s: Store, c: string)
    requires c != "" && c !in PostIds(s)
    ensures StartIndex(Feed(s), Some(c)) == |Feed(s)|
  {
    FeedMembers(s);
    var feed := Feed(s);
    forall k | 0 <= k < |feed| ensures feed[k].id != c {
      assert feed[k] in s.posts;
    }
  }

  /** Ids that can serve as cursors: distinct and never the empty string. */
  ghost predicate CursorSafe(feed: seq<Post>) {
    DistinctBy(feed, PostKey) && forall p :: p in feed ==> p.id != ""
  }

  /** The request after a page with a next cursor starts exactly one page
      further down the feed. */
  lemma NextPageStartsAfter(feed: seq<Post>, cursor: Option<string>)
    requires CursorSafe(feed)
    requires PageOf(feed, cursor).nextCursor.Some?
    ensures StartIndex(feed, PageOf(feed, cursor).nextCursor) == StartIndex(feed, cursor) + Limit
  {
    var i := StartIndex(feed, cursor);
    var c := PageOf(feed, cursor).nextCursor.value;
    assert c == feed[i + Limit].id;
    assert feed[i + Limit] in feed;
    var found := IndexWhere(feed, (p: Post) => p.id == c);
    assert found.Some?;
    forall j | 0 <= j < i + Limit ensures PostKey(feed[j]) != PostKey(feed[i + Limit]) {
    }
  }

  /** What an infinite-scroll client accumulates when it starts at `cursor`
      and keeps requesting with the previous page's next cursor until none
      is handed out. */
  function Scroll(feed: seq<Post>, cursor: Option<string>): (r: seq<Post>)
    requires CursorSafe(feed)
    ensures r == FromCursor(feed, cursor)
    decreases |feed| - StartIndex(feed, cursor)
  {
    var page := PageOf(feed, cursor);
    match page.nextCursor
    case None => page.posts
    case Some(c) =>
      NextPageStartsAfter(feed, cursor);
      var rest := Scroll(feed, Some(c));
      var i := StartIndex(feed, cursor);
      assert feed[i..] == feed[i..][..Limit] + feed[i + Limit..];
      page.posts + rest
  }

  /** The chained pages of the feed, started without a cursor, list every post
      exactly once, newest first: no gaps, no duplicates. */
  lemma ChainedPagesCoverFeed(s: Store)
    requires Valid(s)
    requires forall p :: p in s.posts ==> p.id != ""
    ensures CursorSafe(Feed(s))
    ensures Scroll(Feed(s), None) == Feed(s)
    ensures multiset(Scroll(Feed(s), None)) == multiset(s.posts)
    ensures DistinctBy(Scroll(Feed(s), None), PostKey)
    ensures SortedDesc(Scroll(Feed(s), None), PostCreatedAt)
  {
    var feed := Feed(s);
    FeedDistinct(s);
    forall p | p in feed ensures p.id != "" {
      assert p in multiset(s.posts);
    }
  }

  /** An empty-string cursor reads from the top of the feed. */
  lemma EmptyCursorRestarts(feed: seq<Post>)
    ensures PageOf(feed, Some("")) == PageOf(feed, None)
  {
  }

  /** Why the covering theorem needs non-empty ids: a post whose id is the
      empty string, handed out as the next cursor, is falsy, so the next
      request starts again from the top of the feed. */
  lemma EmptyIdCursorRestarts(feed: seq<Post>)
    requires |feed| > Limit && feed[Limit].id == ""
    ensures PageOf(feed, None).nextCursor == Some("")
    ensures PageOf(feed, PageOf(feed, None).nextCursor) == PageOf(feed, None)
  {
    EmptyCursorRestarts(feed);
  }
}

=== FILE: post_authorization.dfy ===
/** Who may change a post's co-authors and delete it. The procedures as
    written check nothing about the caller; the page that calls them offers
    these actions only to the post's primary author. This module states the
    consequences of the unchecked procedures and gives the guarded versions
    with the property the guard buys. */
module PostAuthorization {
  import opened Outcomes
  import opened Store
  import opened PostRouter

  predicate IsPrimaryAuthor(s: Store, actor: UserId, postId: PostId) {
    match FindPost(s, postId)
    case None => false
    case Some(p) => p.authorId == actor
  }

  // ------------------------------------------------------------ as written

  /** Any signed-in user can make themself a co-author of any post and so
      pass the ownership guard of the post updates. */
  lemma AddAuthorGrantsEditToAnyone(s: Store, actor: UserId, postId: PostId)
    requires postId in PostIds(s) && actor in UserIds(s)
    requires !CanEdit(s, actor, postId)
    ensures AddAuthor(s, postId, actor).result.Ok?
    ensures CanEdit(AddAuthor(s, postId, actor).store, actor, postId)
    ensures UpdatePost(AddAuthor(s, postId, actor).store, actor, postId, "t", "d", "h", None).result.Ok?
  {
  }

  /** Any signed-in user can revoke any co-author's grant. */
  lemma RemoverAuthorRevokesForAnyone(s: Store, postId: PostId, userId: UserId)
    requires CanEdit(s, userId, postId) && !IsPrimaryAuthor(s, userId, postId)
    ensures !CanEdit(RemoverAuthor(s, postId, userId, false).store, userId, postId)
  {
  }

  /** Any signed-in user can delete any post: the outcome does not depend on
      who asks. */
  lemma DeletePostIgnoresCaller(s: Store, postId: PostId)
    requires postId in PostIds(s)
    ensures DeletePost(s, postId).result.Ok?
    ensures postId !in PostIds(DeletePost(s, postId).store)
  {
  }

  /** A concrete store where a stranger deletes someone else's post. */
  lemma StrangerDeletesPost()
    ensures var alice := User("alice", "alice", "Alice", None, "a@example.com");
      var mallory := User("mallory", "mallory", "Mallory", None, "m@example.com");
      var post := Post("p1", "hello", "Hello there", "", "", None, None, 1, "alice", {});
      var s := Store([alice, mallory], [post], [], {}, [], [], [], {});
      && !IsPrimaryAuthor(s, "mallory", "p1") && !CanEdit(s, "mallory", "p1")
      && DeletePost(s, "p1").result.Ok?
      && DeletePost(s, "p1").store.posts == []
  {
    var post := Post("p1", "hello", "Hello there", "", "", None, None, 1, "alice", {});
    assert PostIds(Store([], [post], [], {}, [], [], [], {})) == {"p1"};
  }

  // --------------------------------------------------------------- guarded

  /** Co-author grant, for the post's primary author only. */
  function AddAuthorAsOwner(s: Store, actor: UserId, postId: PostId, userId: UserId): (r: Step<CoAuthor, Store>)
    ensures !IsPrimaryAuthor(s, actor, postId) ==> r == Step(Err(Forbidden), s)
    ensures r.result.Err? ==> r.store == s
    ensures r.result.Ok? ==> IsPrimaryAuthor(s, actor, postId) && CoAuthor(postId, userId) in r.store.coAuthors
  {
    if !IsPrimaryAuthor(s, actor, postId) then Step(Err(Forbidden), s)
    else AddAuthor(s, postId, userId)
  }

  /** Co-author revocation, for the post's primary author only. */
  function RemoveAuthorAsOwner(
    s: Store, actor: UserId, postId: PostId, userId: UserId, storeFault: bool): (r: Step<Removal, Store>)
    ensures !IsPrimaryAuthor(s, actor, postId) ==> r == Step(Err(Forbidden), s)
    ensures r.result.Ok? ==> IsPrimaryAuthor(s, actor, postId)
    ensures r.result.Ok? && r.result.value.success ==> CoAuthor(postId, userId) !in r.store.coAuthors
  {
    if !IsPrimaryAuthor(s, actor, postId) then Step(Err(Forbidden), s)
    else RemoverAuthor(s, postId, userId, storeFault)
  }

  /** Deletion, for the post's primary author only. */
  function DeletePostAsAuthor(s: Store, actor: UserId, postId: PostId): (r: Step<(), Store>)
    ensures !IsPrimaryAuthor(s, actor, postId) ==> r == Step(Err(Forbidden), s)
    ensures r.result.Ok? <==> IsPrimaryAuthor(s, actor, postId)
    ensures r.result.Ok? ==> postId !in PostIds(r.store)
  {
    if !IsPrimaryAuthor(s, actor, postId) then Step(Err(Forbidden), s)
    else DeletePost(s, postId)
  }

  /** With the guard, edit rights on a post are only ever granted by its
      primary author, and only to the user named in the grant. */
  lemma EditRightsGrantedOnlyByAuthor(s: Store, actor: UserId, postId: PostId, userId: UserId, u: UserId)
    requires !CanEdit(s, u, postId)
    requires CanEdit(AddAuthorAsOwner(s, actor, postId, userId).store, u, postId)
    ensures IsPrimaryAuthor(s, actor, postId) && u == userId
  {
  }

  /** With the guard, edit rights are only ever revoked by the primary
      author, and never the primary author's own. */
  lemma EditRightsRevokedOnlyByAuthor(
    s: Store, actor: UserId, postId: PostId, userId: UserId, storeFault: bool, u: UserId)
    requires CanEdit(s, u, postId)
    requires !CanEdit(RemoveAuthorAsOwner(s, actor, postId, userId, storeFault).store, u, postId)
    ensures IsPrimaryAuthor(s, actor, postId) && u == userId && !IsPrimaryAuthor(s, u, postId)
  {
  }

  /** With the guard, a post disappears only at its primary author's request. */
  lemma PostsDeletedOnlyByAuthor(s: Store, actor: UserId, postId: PostId, q: PostId)
    requires q in PostIds(s)
    requires q !in PostIds(DeletePostAsAuthor(s, actor, postId).store)
    ensures IsPrimaryAuthor(s, actor, postId) && q == postId
  {
    var r := DeletePostAsAuthor(s, actor, postId);
    var p :| p in s.posts && p.id == q;
    assert p.id != postId ==> p in r.store.posts;
  }
}

=== FILE: post_integrity.dfy ===
/** Every post procedure keeps the schema's integrity constraints: unique
    keys stay unique and every reference still resolves. */
module PostIntegrity {
  import opened Outcomes
  import opened Seqs
  import opened Store
  import WriteForm
  import opened PostRouter

  /** Rewriting post rows without touching id, slug, author or tags the
      constraints do not see keeps a valid store valid. */
  lemma RewritePostsKeepsValid(s: Store, postId: PostId, f: Post -> Post)
    requires Valid(s)
    requires forall p: Post :: p.id == postId ==> f(p).id == p.id && f(p).slug == p.slug && f(p).authorId == p.authorId
    requires forall p: Post :: p.id == postId && p.tags <= TagIds(s) ==> f(p).tags <= TagIds(s)
    ensures Valid(s.(posts := MapWhere(s.posts, Selects(postId), f)))
    ensures PostIds(s.(posts := MapWhere(s.posts, Selects(postId), f))) == PostIds(s)
  {
    var s' := s.(posts := MapWhere(s.posts, Selects(postId), f));
    MapWhereKeepsKeys(s.posts, Selects(postId), f, PostKey);
    MapWhereKeepsKeys(s.posts, Selects(postId), f, PostSlugKey);
    assert PostIds(s') == PostIds(s) by {
      assert PostIds(s') == (set x | x in s'.posts :: PostKey(x));
      assert PostIds(s) == (set x | x in s.posts :: PostKey(x));
    }
    assert KeysUnique(s');
    assert PostRefs(s') by {
      forall p | p in s'.posts ensures p.authorId in UserIds(s') && p.tags <= TagIds(s') {
        var i :| 0 <= i < |s'.posts| && s'.posts[i] == p;
        assert s.posts[i] in s.posts;
      }
    }
    assert JoinRefs(s');
    assert FollowsWellFormed(s');
  }

  lemma CreatePostKeepsValid(
    s: Store, actor: UserId, sub: WriteForm.Submission, slugify: string -> string, freshId: PostId, now: nat)
    requires Valid(s)
    ensures Valid(CreatePost(s, actor, sub, slugify, freshId, now).store)
  {
    var r := CreatePost(s, actor, sub, slugify, freshId, now);
    if r.result.Ok? {
      var p := r.store.posts[|s.posts|];
      assert r.store.posts == s.posts + [p];
      DistinctByAppend(s.posts, p, PostKey);
      DistinctByAppend(s.posts, p, PostSlugKey);
      assert PostIds(r.store) == PostIds(s) + {p.id};
    }
  }

  lemma AddAuthorKeepsValid(s: Store, postId: PostId, userId: UserId)
    requires Valid(s)
    ensures Valid(AddAuthor(s, postId, userId).store)
  {
  }

  lemma RemoverAuthorKeepsValid(s: Store, postId: PostId, userId: UserId, storeFault: bool)
    requires Valid(s)
    ensures Valid(RemoverAuthor(s, postId, userId, storeFault).store)
  {
  }

  lemma UpdatePostFeaturedImageKeepsValid(
    s: Store, actor: UserId, postId: PostId, imageUrl: string, isUrl: string -> bool)
    requires Valid(s)
    ensures Valid(UpdatePostFeaturedImage(s, actor, postId, imageUrl, isUrl).store)
  {
    if isUrl(imageUrl) && CanEdit(s, actor, postId) {
      RewritePostsKeepsValid(s, postId, (p: Post) => p.(featuredImage := Some(imageUrl)));
    }
  }

  lemma UpdatePostKeepsValid(
    s: Store, actor: UserId, postId: PostId,
    title: string, description: string, html: string, tagsIds: Option<seq<TagId>>)
    requires Valid(s)
    ensures Valid(UpdatePost(s, actor, postId, title, description, html, tagsIds).store)
  {
    if CanEdit(s, actor, postId) {
      RewritePostsKeepsValid(s, postId, (p: Post) => p.(tags := {}));
      var cleared := ClearTags(s, postId);
      if TagSet(tagsIds) <= TagIds(s) {
        RewritePostsKeepsValid(cleared, postId,
          (p: Post) => p.(title := title, description := description, html := html, tags := TagSet(tagsIds)));
      }
    }
  }

  lemma DeletePostKeepsValid(s: Store, postId: PostId)
    requires Valid(s)
    ensures Valid(DeletePost(s, postId).store)
  {
    if postId in PostIds(s) {
      var s' := WithoutPost(s, postId);
      FilterDistinct(s.posts, (p: Post) => p.id != postId, PostKey);
      FilterDistinct(s.posts, (p: Post) => p.id != postId, PostSlugKey);
      FilterDistinct(s.likes, (l: Like) => l.postId != postId, LikeKey);
      FilterDistinct(s.bookmarks, (b: Bookmark) => b.postId != postId, BookmarkKey);
      FilterDistinct(s.comments, (c: Comment) => c.postId != postId, CommentKey);
      assert PostIds(s') == PostIds(s) - {postId} by {
        forall q | q in PostIds(s) && q != postId ensures q in PostIds(s') {
          var p :| p in s.posts && p.id == q;
          assert p in s'.posts;
        }
      }
    }
  }

  lemma LikePostKeepsValid(s: Store, actor: UserId, postId: PostId)
    requires Valid(s)
    ensures Valid(LikePost(s, actor, postId).store)
  {
    var r := LikePost(s, actor, postId);
    if r.result.Ok? {
      DistinctByAppend(s.likes, Like(actor, postId), LikeKey);
    }
  }

  /** Dropping rows of a join table keeps a valid store valid. */
  lemma ShrinkLikesKeepsValid(s: Store, likes: seq<Like>)
    requires Valid(s)
    requires DistinctBy(likes, LikeKey)
    requires forall l :: l in likes ==> l in s.likes
    ensures Valid(s.(likes := likes))
  {
    var s' := s.(likes := likes);
    assert KeysUnique(s');
    assert JoinRefs(s');
  }

  lemma ShrinkBookmarksKeepsValid(s: Store, bookmarks: seq<Bookmark>)
    requires Valid(s)
    requires DistinctBy(bookmarks, BookmarkKey)
    requires forall b :: b in bookmarks ==> b in s.bookmarks
    ensures Valid(s.(bookmarks := bookmarks))
  {
    var s' := s.(bookmarks := bookmarks);
    assert KeysUnique(s');
    assert JoinRefs(s');
  }

  lemma DislikePostKeepsValid(s: Store, actor: UserId, postId: PostId)
    requires Valid(s)
    ensures Valid(DislikePost(s, actor, postId).store)
  {
    FilterDistinct(s.likes, OtherLike(actor, postId), LikeKey);
    ShrinkLikesKeepsValid(s, Filter(s.likes, OtherLike(actor, postId)));
  }

  lemma BookmarkPostKeepsValid(s: Store, actor: UserId, postId: PostId, now: nat)
    requires Valid(s)
    ensures Valid(BookmarkPost(s, actor, postId, now).store)
  {
    var r := BookmarkPost(s, actor, postId, now);
    if r.result.Ok? {
      DistinctByAppend(s.bookmarks, Bookmark(actor, postId, now), BookmarkKey);
    }
  }

  lemma RemoveBookmarkKeepsValid(s: Store, actor: UserId, postId: PostId)
    requires Valid(s)
    ensures Valid(RemoveBookmark(s, actor, postId).store)
  {
    FilterDistinct(s.bookmarks, OtherBookmark(actor, postId), BookmarkKey);
    ShrinkBookmarksKeepsValid(s, Filter(s.bookmarks, OtherBookmark(actor, postId)));
  }

  lemma SubmitCommentKeepsValid(
    s: Store, actor: UserId, postId: PostId, text: string, freshId: CommentId, now: nat)
    requires Valid(s)
    ensures Valid(SubmitComment(s, actor, postId, text, freshId, now).store)
  {
    var r := SubmitComment(s, actor, postId, text, freshId, now);
    if r.result.Ok? {
      DistinctByAppend(s.comments, Comment(freshId, text, now, actor, postId), CommentKey);
    }
  }
}

=== FILE: post_router.dfy ===
/** The post procedures: creation, co-authorship, the ownership-guarded
    updates, deletion, likes, bookmarks, comments and the reading list.
    Each mutating procedure maps a store to a result and the store after it. */
module PostRouter {
  import opened Outcomes
  import opened Seqs
  import opened Store
  import WriteForm

  const CommentMin: nat := 3
  const ReadingListSize: nat := 4

  /** The ids of an optional tag-id list, as a `connect` reads them. */
  function TagSet(tagsIds: Option<seq<TagId>>): (r: set<TagId>)
    ensures tagsIds.None? ==> r == {}
    ensures tagsIds.Some? ==> forall t :: t in r <==> t in tagsIds.value
  {
    match tagsIds
    case None => {}
    case Some(ids) => set t | t in ids
  }

  /** The ownership guard of the post updates: the post exists and the actor
      is its primary author or one of its co-authors. A missing post fails
      the guard, since both of its tests then read an undefined row. */
  predicate CanEdit(s: Store, actor: UserId, postId: PostId): (r: bool)
    ensures postId !in PostIds(s) ==> !r
    ensures r ==> exists p :: p in s.posts && p.id == postId && (p.authorId == actor || CoAuthor(postId, actor) in s.coAuthors)
    ensures DistinctBy(s.posts, PostKey) ==>
      (r <==> exists p :: p in s.posts && p.id == postId && (p.authorId == actor || CoAuthor(postId, actor) in s.coAuthors))
  {
    match FindPost(s, postId)
    case None => false
    case Some(p) => p.authorId == actor || CoAuthor(postId, actor) in s.coAuthors
  }

  function Selects(postId: PostId): Post -> bool {
    (p: Post) => p.id == postId
  }

  // ---------------------------------------------------------------- creation

  /** Creates a post authored by the session user. The form is validated
      first; the store then rejects a taken id or slug and a missing author
      or tag to connect. */
  function CreatePost(
    s: Store, actor: UserId, sub: WriteForm.Submission,
    slugify: string -> string, freshId: PostId, now: nat): (r: Step<(), Store>)
    ensures r.result.Err? ==> r.store == s
    ensures !WriteForm.Accepts(sub.form) ==> r.result == Err(InvalidInput)
    ensures r.result.Ok? <==>
      && WriteForm.Accepts(sub.form)
      && freshId !in PostIds(s) && slugify(sub.form.title) !in PostSlugs(s)
      && actor in UserIds(s) && TagSet(sub.tagsIds) <= TagIds(s)
    ensures r.result.Ok? ==>
      && |r.store.posts| == |s.posts| + 1
      && r.store == s.(posts := s.posts + [r.store.posts[|s.posts|]])
      && var p := r.store.posts[|s.posts|];
      && p.id == freshId && p.authorId == actor && p.slug == slugify(sub.form.title)
      && p.tags == TagSet(sub.tagsIds) && p.createdAt == now && p.featuredImage.None?
      && p.title == sub.form.title && p.description == sub.form.description
      && p.html == sub.form.html && p.text == sub.form.text
  {
    if !WriteForm.Accepts(sub.form) then Step(Err(InvalidInput), s)
    else
      var form := sub.form;
      var slug := slugify(form.title);
      if freshId in PostIds(s) || slug in PostSlugs(s) then Step(Err(StoreFailure(UniqueViolation)), s)
      else if actor !in UserIds(s) || !(TagSet(sub.tagsIds) <= TagIds(s)) then
        Step(Err(StoreFailure(RecordNotFound)), s)
      else
        var post := Post(freshId, slug, form.title, form.description, form.html, form.text,
                         None, now, actor, TagSet(sub.tagsIds));
        Step(Ok(()), s.(posts := s.posts + [post]))
  }

  // ------------------------------------------------------------ co-authors

  /** Grants `userId` co-authorship of `postId`. The procedure itself checks
      nothing about the caller; only the store's key and references apply. */
  function AddAuthor(s: Store, postId: PostId, userId: UserId): (r: Step<CoAuthor, Store>)
    ensures r.result.Err? ==> r.store == s
    ensures r.result.Ok? <==>
      CoAuthor(postId, userId) !in s.coAuthors && postId in PostIds(s) && userId in UserIds(s)
    ensures r.result.Ok? ==>
      r.result.value == CoAuthor(postId, userId)
      && r.store == s.(coAuthors := s.coAuthors + {CoAuthor(postId, userId)})
  {
    var row := CoAuthor(postId, userId);
    if row in s.coAuthors then Step(Err(StoreFailure(UniqueViolation)), s)
    else if postId !in PostIds(s) || userId !in UserIds(s) then Step(Err(StoreFailure(ForeignKeyViolation)), s)
    else Step(Ok(row), s.(coAuthors := s.coAuthors + {row}))
  }

  datatype Removal = Removal(success: bool)

  /** Deletes every co-author row of (`postId`, `userId`). A fault of the
      store (`storeFault`) is caught and reported as an unsuccessful removal
      instead of an error. */
  function RemoverAuthor(s: Store, postId: PostId, userId: UserId, storeFault: bool): (r: Step<Removal, Store>)
    ensures r.result.Ok?
    ensures r.result.value.success <==> !storeFault
    ensures storeFault ==> r.store == s
    ensures !storeFault ==>
      && CoAuthor(postId, userId) !in r.store.coAuthors
      && (forall a :: a != CoAuthor(postId, userId) ==> (a in r.store.coAuthors <==> a in s.coAuthors))
      && r.store == s.(coAuthors := r.store.coAuthors)
  {
    if storeFault then Step(Ok(Removal(false)), s)
    else Step(Ok(Removal(true)), s.(coAuthors := s.coAuthors - {CoAuthor(postId, userId)}))
  }

  // ------------------------------------------------------ guarded updates

  /** Sets a post's featured image, for its primary author or a co-author. */
  function UpdatePostFeaturedImage(
    s: Store, actor: UserId, postId: PostId, imageUrl: string, isUrl: string -> bool): (r: Step<(), Store>)
    ensures r.result.Err? ==> r.store == s
    ensures !isUrl(imageUrl) ==> r.result == Err(InvalidInput)
    ensures isUrl(imageUrl) && !CanEdit(s, actor, postId) ==> r.result == Err(Forbidden)
    ensures r.result.Ok? <==> isUrl(imageUrl) && CanEdit(s, actor, postId)
    ensures r.result.Ok? ==>
      && r.store == s.(posts := r.store.posts)
      && |r.store.posts| == |s.posts|
      && forall i :: 0 <= i < |s.posts| ==>
           && r.store.posts[i].(featuredImage := s.posts[i].featuredImage) == s.posts[i]
           && (s.posts[i].id == postId ==> r.store.posts[i].featuredImage == Some(imageUrl))
           && (s.posts[i].id != postId ==> r.store.posts[i] == s.posts[i])
  {
    if !isUrl(imageUrl) then Step(Err(InvalidInput), s)
    else if !CanEdit(s, actor, postId) then Step(Err(Forbidden), s)
    else Step(Ok(()), s.(posts := MapWhere(s.posts, Selects(postId), (p: Post) => p.(featuredImage := Some(imageUrl)))))
  }

  /** The post with its tag associations cleared: the first of the two
      statements of an authorised update. */
  function ClearTags(s: Store, postId: PostId): Store {
    s.(posts := MapWhere(s.posts, Selects(postId), (p: Post) => p.(tags := {})))
  }

  /** Replaces a post's title, description and body and its tag set, for its
      primary author or a co-author. The tags are replaced in two statements:
      disconnect every current tag, then connect the submitted ones together
      with the new fields. When a submitted tag does not exist the second
      statement fails after the first took effect, so the post is left with
      its old fields and no tags. */
  function UpdatePost(
    s: Store, actor: UserId, postId: PostId,
    title: string, description: string, html: string, tagsIds: Option<seq<TagId>>): (r: Step<(), Store>)
    ensures !CanEdit(s, actor, postId) ==> r == Step(Err(Forbidden), s)
    ensures r.result.Ok? <==> CanEdit(s, actor, postId) && TagSet(tagsIds) <= TagIds(s)
    ensures r.result.Err? && CanEdit(s, actor, postId) ==>
      r.result == Err(StoreFailure(RecordNotFound)) && r.store == ClearTags(s, postId)
    ensures r.store == s.(posts := r.store.posts) && |r.store.posts| == |s.posts|
    ensures forall i :: 0 <= i < |s.posts| && s.posts[i].id != postId ==> r.store.posts[i] == s.posts[i]
    ensures r.result.Ok? ==> forall i :: 0 <= i < |s.posts| && s.posts[i].id == postId ==>
      && r.store.posts[i].tags == TagSet(tagsIds)
      && r.store.posts[i].title == title
      && r.store.posts[i].description == description
      && r.store.posts[i].html == html
      && r.store.posts[i].(title := s.posts[i].title, description := s.posts[i].description,
                           html := s.posts[i].html, tags := s.posts[i].tags) == s.posts[i]
  {
    if !CanEdit(s, actor, postId) then Step(Err(Forbidden), s)
    else
      var cleared := ClearTags(s, postId);
      if !(TagSet(tagsIds) <= TagIds(s)) then Step(Err(StoreFailure(RecordNotFound)), cleared)
      else
        Step(Ok(()), cleared.(posts := MapWhere(cleared.posts, Selects(postId),
          (p: Post) => p.(title := title, description := description, html := html, tags := TagSet(tagsIds)))))
  }

  // --------------------------------------------------------------- deletion

  /** A store without the post and without every row that depends on it
      (co-author grants, likes, bookmarks, comments), as the schema's
      cascading deletes leave it. */
  function WithoutPost(s: Store, postId: PostId): (r: Store)
    ensures postId !in PostIds(r)
    ensures forall p :: p in r.posts <==> p in s.posts && p.id != postId
    ensures forall a :: a in r.coAuthors <==> a in s.coAuthors && a.postId != postId
    ensures forall l :: l in r.likes <==> l in s.likes && l.postId != postId
    ensures forall b :: b in r.bookmarks <==> b in s.bookmarks && b.postId != postId
    ensures forall c :: c in r.comments <==> c in s.comments && c.postId != postId
    ensures r.users == s.users && r.tags == s.tags && r.follows == s.follows
  {
    Store(
      s.users,
      Filter(s.posts, (p: Post) => p.id != postId),
      s.tags,
      (set a | a in s.coAuthors && a.postId != postId),
      Filter(s.likes, (l: Like) => l.postId != postId),
      Filter(s.bookmarks, (b: Bookmark) => b.postId != postId),
      Filter(s.comments, (c: Comment) => c.postId != postId),
      s.follows)
  }

  /** Deletes a post with its dependent rows. As written, the procedure does
      not look at who is asking. */
  function DeletePost(s: Store, postId: PostId): (r: Step<(), Store>)
    ensures r.result.Ok? <==> postId in PostIds(s)
    ensures r.result.Err? ==> r == Step(Err(StoreFailure(RecordNotFound)), s)
    ensures r.result.Ok? ==> r.store == WithoutPost(s, postId)
  {
    if postId !in PostIds(s) then Step(Err(StoreFailure(RecordNotFound)), s)
    else Step(Ok(()), WithoutPost(s, postId))
  }

  // ------------------------------------------------------ likes, bookmarks

  /** Records that the session user likes the post. */
  function LikePost(s: Store, actor: UserId, postId: PostId): (r: Step<(), Store>)
    ensures r.result.Err? ==> r.store == s
    ensures r.result.Ok? <==> !HasLike(s, actor, postId) && actor in UserIds(s) && postId in PostIds(s)
    ensures HasLike(s, actor, postId) ==> r.result == Err(StoreFailure(UniqueViolation))
    ensures r.result.Ok? ==> HasLike(r.store, actor, postId)
    ensures forall u, p :: (u, p) != (actor, postId) ==> (HasLike(r.store, u, p) <==> HasLike(s, u, p))
    ensures r.store == s.(likes := r.store.likes)
  {
    if HasLike(s, actor, postId) then Step(Err(StoreFailure(UniqueViolation)), s)
    else if actor !in UserIds(s) || postId !in PostIds(s) then Step(Err(StoreFailure(ForeignKeyViolation)), s)
    else Step(Ok(()), s.(likes := s.likes + [Like(actor, postId)]))
  }

  /** Withdraws the session user's like of the post. */
  function DislikePost(s: Store, actor: UserId, postId: PostId): (r: Step<(), Store>)
    ensures r.result.Err? ==> r == Step(Err(StoreFailure(RecordNotFound)), s)
    ensures r.result.Ok? <==> HasLike(s, actor, postId)
    ensures !HasLike(r.store, actor, postId)
    ensures forall u, p :: (u, p) != (actor, postId) ==> (HasLike(r.store, u, p) <==> HasLike(s, u, p))
    ensures r.store == s.(likes := r.store.likes)
  {
    if !HasLike(s, actor, postId) then Step(Err(StoreFailure(RecordNotFound)), s)
    else Step(Ok(()), s.(likes := Filter(s.likes, OtherLike(actor, postId))))
  }

  function OtherLike(actor: UserId, postId: PostId): Like -> bool {
    (l: Like) => l != Like(actor, postId)
  }

  /** Records a bookmark of the post by the session user, stamped `now`. */
  function BookmarkPost(s: Store, actor: UserId, postId: PostId, now: nat): (r: Step<(), Store>)
    ensures r.result.Err? ==> r.store == s
    ensures r.result.Ok? <==> !HasBookmark(s, actor, postId) && actor in UserIds(s) && postId in PostIds(s)
    ensures HasBookmark(s, actor, postId) ==> r.result == Err(StoreFailure(UniqueViolation))
    ensures r.result.Ok? ==> HasBookmark(r.store, actor, postId) && Bookmark(actor, postId, now) in r.store.bookmarks
    ensures forall u, p :: (u, p) != (actor, postId) ==> (HasBookmark(r.store, u, p) <==> HasBookmark(s, u, p))
    ensures r.store == s.(bookmarks := r.store.bookmarks)
  {
    if HasBookmark(s, actor, postId) then Step(Err(StoreFailure(UniqueViolation)), s)
    else if actor !in UserIds(s) || postId !in PostIds(s) then Step(Err(StoreFailure(ForeignKeyViolation)), s)
    else
      var s' := s.(bookmarks := s.bookmarks + [Bookmark(actor, postId, now)]);
      assert Bookmark(actor, postId, now) in s'.bookmarks;
      Step(Ok(()), s')
  }

  /** Removes the session user's bookmark of the post. */
  function RemoveBookmark(s: Store, actor: UserId, postId: PostId): (r: Step<(), Store>)
    ensures r.result.Err? ==> r == Step(Err(StoreFailure(RecordNotFound)), s)
    ensures r.result.Ok? <==> HasBookmark(s, actor, postId)
    ensures !HasBookmark(r.store, actor, postId)
    ensures forall u, p :: (u, p) != (actor, postId) ==> (HasBookmark(r.store, u, p) <==> HasBookmark(s, u, p))
    ensures r.store == s.(bookmarks := r.store.bookmarks)
  {
    if !HasBookmark(s, actor, postId) then Step(Err(StoreFailure(RecordNotFound)), s)
    else Step(Ok(()), s.(bookmarks := Filter(s.bookmarks, OtherBookmark(actor, postId))))
  }

  function OtherBookmark(actor: UserId, postId: PostId): Bookmark -> bool {
    (b: Bookmark) => !(b.userId == actor && b.postId == postId)
  }

  // --------------------------------------------------------------- comments

  /** Adds a comment by the session user to the post. */
  function SubmitComment(
    s: Store, actor: UserId, postId: PostId, text: string, freshId: CommentId, now: nat): (r: Step<(), Store>)
    ensures r.result.Err? ==> r.store == s
    ensures |text| < CommentMin ==> r.result == Err(InvalidInput)
    ensures r.result.Ok? <==>
      |text| >= CommentMin && freshId !in CommentIds(s) && actor in UserIds(s) && postId in PostIds(s)
    ensures r.result.Ok? ==> r.store == s.(comments := s.comments + [Comment(freshId, text, now, actor, postId)])
  {
    if |text| < CommentMin then Step(Err(InvalidInput), s)
    else if freshId in CommentIds(s) then Step(Err(StoreFailure(UniqueViolation)), s)
    else if actor !in UserIds(s) || postId !in PostIds(s) then Step(Err(StoreFailure(RecordNotFound)), s)
    else Step(Ok(()), s.(comments := s.comments + [Comment(freshId, text, now, actor, postId)]))
  }

  function OnPost(postId: PostId): Comment -> bool {
    (c: Comment) => c.postId == postId
  }

  /** The post's comments, newest first. */
  function GetComments(s: Store, postId: PostId): (r: seq<Comment>)
    ensures forall c :: multiset(r)[c] == if c.postId == postId then multiset(s.comments)[c] else 0
    ensures SortedDesc(r, CommentCreatedAt)
  {
    SortDesc(Filter(s.comments, OnPost(postId)), CommentCreatedAt)
  }

  // ----------------------------------------------------------- reading list

  /** The session user's bookmarks, newest first. */
  function ViewerBookmarks(s: Store, actor: UserId): seq<Bookmark> {
    SortDesc(Filter(s.bookmarks, BookmarkedBy(actor)), BookmarkCreatedAt)
  }

  /** The reading list: the session user's four most recent bookmarks. */
  function GetReadingList(s: Store, actor: UserId): (r: seq<Bookmark>)
    ensures |r| <= ReadingListSize
    ensures |r| == ReadingListSize || |r| == |Filter(s.bookmarks, BookmarkedBy(actor))|
    ensures multiset(r) <= multiset(Filter(s.bookmarks, BookmarkedBy(actor)))
    ensures forall b :: b in r ==> b in s.bookmarks && b.userId == actor
    ensures SortedDesc(r, BookmarkCreatedAt)
    ensures forall b, x :: b in s.bookmarks && b.userId == actor && b !in r && x in r ==> x.createdAt >= b.createdAt
  {
    var all := ViewerBookmarks(s, actor);
    var r := Take(all, ReadingListSize);
    ReadingListIsNewest(s, actor);
    assert all == r + all[|r|..];
    r
  }

  lemma ReadingListIsNewest(s: Store, actor: UserId)
    ensures var all := ViewerBookmarks(s, actor);
      var r := Take(all, ReadingListSize);
      && (forall b :: b in all <==> b in s.bookmarks && b.userId == actor)
      && SortedDesc(r, BookmarkCreatedAt)
      && forall b, x :: b in all && b !in r && x in r ==> x.createdAt >= b.createdAt
  {
    var mine := Filter(s.bookmarks, BookmarkedBy(actor));
    var all := ViewerBookmarks(s, actor);
    var r := Take(all, ReadingListSize);
    forall b ensures b in all <==> b in mine {
      assert b in all <==> b in multiset(all);
    }
    TakeOfSortedIsTop(all, ReadingListSize, BookmarkCreatedAt);
  }

  // ---------------------------------------------------------------- inverses

  /** Liking a post not yet liked and then withdrawing the like restores
      the store. */
  lemma DislikeUndoesLike(s: Store, actor: UserId, postId: PostId)
    requires LikePost(s, actor, postId).result.Ok?
    ensures DislikePost(LikePost(s, actor, postId).store, actor, postId) == Step(Ok(()), s)
  {
    var keep := OtherLike(actor, postId);
    var l := Like(actor, postId);
    var s1 := s.(likes := s.likes + [l]);
    assert LikePost(s, actor, postId) == Step(Ok(()), s1);
    assert HasLike(s1, actor, postId);
    assert forall x :: x in s.likes ==> keep(x);
    FilterAppend(s.likes, [l], keep);
    FilterKeepsAll(s.likes, keep);
    assert Filter([l], keep) == [];
    assert Filter(s1.likes, keep) == s.likes;
  }

  /** Bookmarking a post not yet bookmarked and then removing the bookmark
      restores the store. */
  lemma RemoveBookmarkUndoesBookmark(s: Store, actor: UserId, postId: PostId, now: nat)
    requires BookmarkPost(s, actor, postId, now).result.Ok?
    ensures RemoveBookmark(BookmarkPost(s, actor, postId, now).store, actor, postId) == Step(Ok(()), s)
  {
    var keep := OtherBookmark(actor, postId);
    var b := Bookmark(actor, postId, now);
    var s1 := s.(bookmarks := s.bookmarks + [b]);
    assert BookmarkPost(s, actor, postId, now) == Step(Ok(()), s1);
    assert HasBookmark(s1, actor, postId);
    assert forall x :: x in s.bookmarks ==> keep(x);
    FilterAppend(s.bookmarks, [b], keep);
    FilterKeepsAll(s.bookmarks, keep);
    assert Filter([b], keep) == [];
    assert Filter(s1.bookmarks, keep) == s.bookmarks;
  }

  /** Once a post is deleted, its comments no longer resolve to it. */
  lemma DeletedPostHasNoComments(s: Store, postId: PostId)
    requires postId in PostIds(s)
    ensures GetComments(DeletePost(s, postId).store, postId) == []
    ensures forall p :: p in DeletePost(s, postId).store.posts ==> p.id != postId
  {
    var c := GetComments(DeletePost(s, postId).store, postId);
    assert multiset(c) == multiset{};
    assert |c| == |multiset(c)|;
  }
}

=== FILE: scenarios.dfy ===
/** A worked example over a small concrete store: a user is suggested to a
    viewer once the viewer shows interest in a tag that user engaged with. */
module Scenarios {
  import opened Outcomes
  import opened Seqs
  import opened Store
  import WriteForm
  import opened PostRouter
  import opened Suggestions

  const Alice := User("a", "alice", "Alice", None, "alice@example.com")
  const Bob := User("b", "bob", "Bob", None, "bob@example.com")
  const Go := Tag("t1", "go", "go", "The Go language")
  const Rust := Tag("t2", "rust", "rust", "The Rust language")

  const IntroTitle := "Getting started with Go and Rust"
  const IntroDescription := "A short tour of two systems languages, written for readers new to both."
  const IntroHtml := "<p>Go favours a small language and fast builds, while Rust favours zero-cost abstractions and memory safety.</p>"
  const Intro := Post("p1", "intro", IntroTitle, IntroDescription, IntroHtml, None, None, 1, "a", {"t1", "t2"})

  function IntroSlug(title: string): string { "intro" }

  /** Two users and two tags, and nothing written yet. */
  function Empty(): Store {
    Store([Alice, Bob], [], [Go, Rust], {}, [], [], [], {})
  }

  /** Alice writes a post tagged go and rust. */
  function Written(): Store {
    var form := WriteForm.Form(IntroTitle, IntroDescription, None, IntroHtml);
    CreatePost(Empty(), "a", WriteForm.Submission(form, Some(["t1", "t2"])), IntroSlug, "p1", 1).store
  }

  /** Bob likes Alice's post. */
  function Start(): Store {
    LikePost(Written(), "b", "p1").store
  }

  /** Both steps succeed, and they leave exactly the post and the like. */
  lemma StartContents()
    ensures Written() == Empty().(posts := [Intro])
    ensures Start() == Store([Alice, Bob], [Intro], [Go, Rust], {}, [Like("b", "p1")], [], [], {})
  {
    var form := WriteForm.Form(IntroTitle, IntroDescription, None, IntroHtml);
    WriteForm.AcceptsIff(form);
    assert WriteForm.Accepts(form);
    assert TagSet(Some(["t1", "t2"])) == {"t1", "t2"};
    assert TagIds(Empty()) == {"t1", "t2"};
    assert UserIds(Empty()) == {"a", "b"};
    assert Written() == Empty().(posts := [Intro]);
    assert PostIds(Written()) == {"p1"};
    assert !HasLike(Written(), "b", "p1");
  }

  function AfterBookmark(): Store {
    Start().(bookmarks := [Bookmark("a", "p1", 5)])
  }

  /** Before liking or bookmarking anything, Alice is suggested nobody. */
  lemma NoSuggestionWithoutInterest()
    ensures GetSuggestions(Start(), "a") == []
  {
    StartContents();
    var s0 := Start();
    NoHistoryNoSuggestions(s0, "a", GetSuggestions(s0, "a"));
  }

  lemma BookmarkStep()
    ensures BookmarkPost(Start(), "a", "p1", 5) == Step(Ok(()), AfterBookmark())
  {
    StartContents();
    assert !HasBookmark(Start(), "a", "p1");
    assert "a" in UserIds(Start()) by { assert Start().users[0].id == "a"; }
    assert "p1" in PostIds(Start()) by { assert Start().posts[0].id == "p1"; }
    assert Start().bookmarks + [Bookmark("a", "p1", 5)] == [Bookmark("a", "p1", 5)];
  }

  lemma InterestAfterBookmark()
    ensures InterestedTags(AfterBookmark(),
      Take(Filter(AfterBookmark().likes, LikedBy("a")), SampleSize),
      Take(Filter(AfterBookmark().bookmarks, BookmarkedBy("a")), SampleSize)) == ["go", "rust"]
  {
    StartContents();
    var s1 := AfterBookmark();
    var bm := Bookmark("a", "p1", 5);
    assert Filter(s1.likes, LikedBy("a")) == [];
    assert Filter(s1.bookmarks, BookmarkedBy("a")) == [bm];
    assert FindPost(s1, "p1") == Some(Intro);
    assert NamesOf([Rust], Intro.tags) == ["rust"];
    assert NamesOf(s1.tags, Intro.tags) == ["go", "rust"];
    assert BookmarkTagNames(s1, [bm]) == ["go", "rust"];
  }

  lemma BobIsCandidate()
    ensures Candidates(AfterBookmark(), "a", ["go", "rust"]) == [Bob]
  {
    StartContents();
    var s1 := AfterBookmark();
    var names := ["go", "rust"];
    assert Carries(s1, "p1", names) by {
      assert Intro in s1.posts && Go in s1.tags && Go.id in Intro.tags && Go.name in names;
    }
    assert Engaged(s1, "b", names) by {
      assert Like("b", "p1") in s1.likes;
    }
    assert !Suggestible(s1, "a", names)(Alice);
    assert Suggestible(s1, "a", names)(Bob);
    assert Filter([Bob], Suggestible(s1, "a", names)) == [Bob];
  }

  /** Once Alice bookmarks the post, Bob, who liked a post carrying its tags,
      is suggested to Alice, and Alice is not suggested to Alice. */
  lemma BookmarkLeadsToSuggestion()
    ensures BookmarkPost(Start(), "a", "p1", 5).result.Ok?
    ensures GetSuggestions(BookmarkPost(Start(), "a", "p1", 5).store, "a") == [Bob]
  {
    BookmarkStep();
    InterestAfterBookmark();
    BobIsCandidate();
  }
}

=== FILE: seqs.dfy ===
/** Sequence operations with the meaning a relational query gives them:
    filtering by a predicate (a `where` clause), keeping a prefix (`take`),
    locating the first matching row (`findUnique`/`findFirst`) and ordering
    by a natural-number key, largest first (`orderBy ... desc`). */
module Seqs {
  import opened Outcomes

  /** The rows of `xs` that satisfy `keep`, in their original order. */
  function Filter<T(!new)>(xs: seq<T>, keep: T -> bool): (r: seq<T>)
    ensures |r| <= |xs|
    ensures forall x :: x in r <==> x in xs && keep(x)
    ensures forall x :: multiset(r)[x] == if keep(x) then multiset(xs)[x] else 0
  {
    if xs == [] then []
    else
      assert xs == [xs[0]] + xs[1..];
      (if keep(xs[0]) then [xs[0]] else []) + Filter(xs[1..], keep)
  }

  /** Filtering distributes over concatenation. */
  lemma {:induction false} FilterAppend<T(!new)>(a: seq<T>, b: seq<T>, keep: T -> bool)
    ensures Filter(a + b, keep) == Filter(a, keep) + Filter(b, keep)
  {
    if a == [] {
      assert a + b == b;
    } else {
      assert (a + b)[1..] == a[1..] + b;
      FilterAppend(a[1..], b, keep);
    }
  }

  lemma {:induction false} FilterKeepsAll<T(!new)>(xs: seq<T>, keep: T -> bool)
    requires forall x :: x in xs ==> keep(x)
    ensures Filter(xs, keep) == xs
  {
    if xs != [] {
      FilterKeepsAll(xs[1..], keep);
      assert xs == [xs[0]] + xs[1..];
    }
  }

  /** The prefix of at most `n` rows. */
  function Take<T>(xs: seq<T>, n: nat): (r: seq<T>)
    ensures |r| <= n && |r| <= |xs|
    ensures |xs| <= n ==> r == xs
    ensures |xs| > n ==> |r| == n
    ensures r == xs[..|r|]
  {
    if |xs| <= n then xs else xs[..n]
  }

  /** No two rows share a key. */
  ghost predicate DistinctBy<T, K>(xs: seq<T>, key: T -> K) {
    forall i, j :: 0 <= i < j < |xs| ==> key(xs[i]) != key(xs[j])
  }

  lemma DistinctByAppend<T, K>(xs: seq<T>, x: T, key: T -> K)
    requires DistinctBy(xs, key)
    requires forall y :: y in xs ==> key(y) != key(x)
    ensures DistinctBy(xs + [x], key)
  {
    forall i, j | 0 <= i < j < |xs + [x]|
      ensures key((xs + [x])[i]) != key((xs + [x])[j])
    {
      if j == |xs| {
        assert (xs + [x])[i] in xs;
      }
    }
  }

  lemma DistinctByTail<T, K>(xs: seq<T>, key: T -> K)
    requires xs != []
    requires DistinctBy(xs, key)
    ensures DistinctBy(xs[1..], key)
  {
    forall i, j | 0 <= i < j < |xs[1..]| ensures key(xs[1..][i]) != key(xs[1..][j]) {
      assert xs[1..][i] == xs[i + 1] && xs[1..][j] == xs[j + 1];
    }
  }

  /** Removing rows never makes two remaining rows share a key. */
  lemma {:induction false} FilterDistinct<T(!new), K>(xs: seq<T>, keep: T -> bool, key: T -> K)
    requires DistinctBy(xs, key)
    ensures DistinctBy(Filter(xs, keep), key)
  {
    if xs != [] {
      DistinctByTail(xs, key);
      FilterDistinct(xs[1..], keep, key);
      var tail := Filter(xs[1..], keep);
      if keep(xs[0]) {
        var r := [xs[0]] + tail;
        forall i, j | 0 <= i < j < |r| ensures key(r[i]) != key(r[j]) {
          if i == 0 {
            assert r[j] in xs[1..];
            var k :| 0 <= k < |xs[1..]| && xs[1..][k] == r[j];
            assert xs[k + 1] == r[j];
          } else {
            assert r[i] == tail[i - 1] && r[j] == tail[j - 1];
          }
        }
      }
    }
  }

  /** The first row satisfying `p`, if any. */
  function Find<T(!new)>(xs: seq<T>, p: T -> bool): (r: Option<T>)
    ensures r.Some? ==> r.value in xs && p(r.value)
    ensures r.None? <==> forall x :: x in xs ==> !p(x)
  {
    if xs == [] then None
    else if p(xs[0]) then Some(xs[0])
    else Find(xs[1..], p)
  }

  /** Position of the first row satisfying `p`, if any. */
  function IndexWhere<T>(xs: seq<T>, p: T -> bool): (r: Option<nat>)
    ensures r.Some? ==> r.value < |xs| && p(xs[r.value])
    ensures r.Some? ==> forall i :: 0 <= i < r.value ==> !p(xs[i])
    ensures r.None? <==> forall i :: 0 <= i < |xs| ==> !p(xs[i])
  {
    if xs == [] then None
    else if p(xs[0]) then Some(0)
    else match IndexWhere(xs[1..], p)
      case None => None
      case Some(k) => Some(k + 1)
  }

  /** Replace every row selected by `sel` with its image under `f`. */
  function MapWhere<T>(xs: seq<T>, sel: T -> bool, f: T -> T): (r: seq<T>)
    ensures |r| == |xs|
    ensures forall i :: 0 <= i < |xs| ==> r[i] == if sel(xs[i]) then f(xs[i]) else xs[i]
  {
    seq(|xs|, i requires 0 <= i < |xs| => if sel(xs[i]) then f(xs[i]) else xs[i])
  }

  /** Rewriting rows without touching their key keeps keys unique and keeps
      the set of keys. */
  lemma MapWhereKeepsKeys<T, K>(xs: seq<T>, sel: T -> bool, f: T -> T, key: T -> K)
    requires forall x :: sel(x) ==> key(f(x)) == key(x)
    ensures DistinctBy(xs, key) ==> DistinctBy(MapWhere(xs, sel, f), key)
    ensures (set x | x in MapWhere(xs, sel, f) :: key(x)) == (set x | x in xs :: key(x))
  {
    var r := MapWhere(xs, sel, f);
    var before := set x | x in xs :: key(x);
    var after := set x | x in r :: key(x);
    forall k | k in before ensures k in after {
      var x :| x in xs && key(x) == k;
      var i :| 0 <= i < |xs| && xs[i] == x;
      assert key(r[i]) == k;
    }
    forall k | k in after ensures k in before {
      var x :| x in r && key(x) == k;
      var i :| 0 <= i < |r| && r[i] == x;
      assert key(xs[i]) == k;
    }
  }

  /** Rows in non-increasing order of `key`. */
  ghost predicate SortedDesc<T>(xs: seq<T>, key: T -> nat) {
    forall i, j :: 0 <= i < j < |xs| ==> key(xs[i]) >= key(xs[j])
  }

  /** The first `n` rows of a descending sequence are sorted and outrank
      every row left out. */
  lemma TakeOfSortedIsTop<T>(xs: seq<T>, n: nat, key: T -> nat)
    requires SortedDesc(xs, key)
    ensures SortedDesc(Take(xs, n), key)
    ensures forall b, x :: b in xs && b !in Take(xs, n) && x in Take(xs, n) ==> key(x) >= key(b)
  {
    var r := Take(xs, n);
    forall b, x | b in xs && b !in r && x in r ensures key(x) >= key(b) {
      var j :| 0 <= j < |xs| && xs[j] == b;
      var i :| 0 <= i < |r| && r[i] == x;
      assert xs[i] == x;
      assert forall k :: 0 <= k < |r| ==> r[k] == xs[k];
      assert j >= |r|;
    }
  }

  /** Insert `x` in front of the first row whose key is not larger; rows with
      equal keys keep `x` first. */
  function InsertDesc<T>(x: T, ys: seq<T>, key: T -> nat): (r: seq<T>)
    ensures multiset(r) == multiset(ys) + multiset{x}
  {
    if ys == [] then [x]
    else if key(x) >= key(ys[0]) then [x] + ys
    else
      assert ys == [ys[0]] + ys[1..];
      [ys[0]] + InsertDesc(x, ys[1..], key)
  }

  lemma {:induction false} InsertDescSorted<T>(x: T, ys: seq<T>, key: T -> nat)
    requires SortedDesc(ys, key)
    ensures SortedDesc(InsertDesc(x, ys, key), key)
  {
    if ys != [] {
      if key(x) >= key(ys[0]) {
        var r := [x] + ys;
        forall i, j | 0 <= i < j < |r| ensures key(r[i]) >= key(r[j]) {
          if i == 0 && j > 1 { assert key(ys[0]) >= key(ys[j - 1]); }
        }
      } else {
        assert SortedDesc(ys[1..], key) by {
          forall i, j | 0 <= i < j < |ys[1..]| ensures key(ys[1..][i]) >= key(ys[1..][j]) {
            assert ys[1..][i] == ys[i + 1] && ys[1..][j] == ys[j + 1];
          }
        }
        InsertDescSorted(x, ys[1..], key);
        var tail := InsertDesc(x, ys[1..], key);
        var r := [ys[0]] + tail;
        forall i, j | 0 <= i < j < |r| ensures key(r[i]) >= key(r[j]) {
          if i == 0 {
            var z := tail[j - 1];
            assert z in multiset(tail);
            if z != x {
              assert z in ys[1..];
              var k :| 0 <= k < |ys[1..]| && ys[1..][k] == z;
              assert ys[k + 1] == z;
            }
          } else {
            assert r[i] == tail[i - 1] && r[j] == tail[j - 1];
          }
        }
      }
    }
  }

  /** Rows ordered by `key`, largest first (a stable insertion sort). */
  function SortDesc<T>(xs: seq<T>, key: T -> nat): (r: seq<T>)
    ensures multiset(r) == multiset(xs)
    ensures |r| == |xs|
    ensures SortedDesc(r, key)
  {
    if xs == [] then []
    else
      assert xs == [xs[0]] + xs[1..];
      var rest := SortDesc(xs[1..], key);
      InsertDescSorted(xs[0], rest, key);
      var r := InsertDesc(xs[0], rest, key);
      assert |r| == |multiset(r)|;
      r
  }

  /** Ordering never merges rows that a key told apart. */
  lemma {:induction false} SortDescDistinct<T, K>(xs: seq<T>, key: T -> nat, id: T -> K)
    requires DistinctBy(xs, id)
    ensures DistinctBy(SortDesc(xs, key), id)
  {
    if xs != [] {
      DistinctByTail(xs, id);
      SortDescDistinct(xs[1..], key, id);
      var rest := SortDesc(xs[1..], key);
      forall y | y in rest ensures id(y) != id(xs[0]) {
        assert y in multiset(xs[1..]);
        var k :| 0 <= k < |xs[1..]| && xs[1..][k] == y;
        assert xs[k + 1] == y;
      }
      InsertDescDistinct(xs[0], rest, key, id);
    }
  }

  lemma {:induction false} InsertDescDistinct<T, K>(x: T, ys: seq<T>, key: T -> nat, id: T -> K)
    requires DistinctBy(ys, id)
    requires forall y :: y in ys ==> id(y) != id(x)
    ensures DistinctBy(InsertDesc(x, ys, key), id)
  {
    if ys != [] && key(x) < key(ys[0]) {
      DistinctByTail(ys, id);
      InsertDescDistinct(x, ys[1..], key, id);
      var tail := InsertDesc(x, ys[1..], key);
      var r := [ys[0]] + tail;
      forall i, j | 0 <= i < j < |r| ensures id(r[i]) != id(r[j]) {
        if i == 0 {
          var z := tail[j - 1];
          assert z in multiset(tail);
          if z != x {
            assert z in ys[1..];
            var k :| 0 <= k < |ys[1..]| && ys[1..][k] == z;
            assert ys[k + 1] == z;
          }
        }
      }
    }
  }
}

=== FILE: store.dfy ===
/** The relational store the procedures run against, as an immutable value.
    Each table is a sequence of rows in the store's own row order (the order
    a query without `orderBy` returns them in); the two many-to-many edge
    tables whose order no query observes are sets. */
module Store {
  import opened Outcomes
  import opened Seqs

  type UserId = string
  type PostId = string
  type TagId = string
  type CommentId = string

  datatype User = User(id: UserId, username: string, name: string, image: Option<string>, email: string)

  /** A post row; `tags` is the post's side of the post/tag relation and
      `createdAt` a clock reading. */
  datatype Post = Post(
    id: PostId,
    slug: string,
    title: string,
    description: string,
    html: string,
    text: Option<string>,
    featuredImage: Option<string>,
    createdAt: nat,
    authorId: UserId,
    tags: set<TagId>)

  datatype Tag = Tag(id: TagId, name: string, slug: string, description: string)

  /** Join rows keyed by (userId, postId). */
  datatype Like = Like(userId: UserId, postId: PostId)
  datatype Bookmark = Bookmark(userId: UserId, postId: PostId, createdAt: nat)
  datatype Comment = Comment(id: CommentId, text: string, createdAt: nat, userId: UserId, postId: PostId)

  /** A co-author grant: `userId` may edit `postId` besides its primary author. */
  datatype CoAuthor = CoAuthor(postId: PostId, userId: UserId)
  /** A directed follow edge: `follower` follows `following`. */
  datatype Follow = Follow(follower: UserId, following: UserId)

  datatype Store = Store(
    users: seq<User>,
    posts: seq<Post>,
    tags: seq<Tag>,
    coAuthors: set<CoAuthor>,
    likes: seq<Like>,
    bookmarks: seq<Bookmark>,
    comments: seq<Comment>,
    follows: set<Follow>)

  // Keys of the tables' unique constraints.
  function UserKey(u: User): UserId { u.id }
  function UsernameKey(u: User): string { u.username }
  function PostKey(p: Post): PostId { p.id }
  function PostSlugKey(p: Post): string { p.slug }
  function PostCreatedAt(p: Post): nat { p.createdAt }
  function TagKey(t: Tag): TagId { t.id }
  function TagNameKey(t: Tag): string { t.name }
  function TagSlugKey(t: Tag): string { t.slug }
  function LikeKey(l: Like): Like { l }
  function BookmarkKey(b: Bookmark): (UserId, PostId) { (b.userId, b.postId) }
  function BookmarkCreatedAt(b: Bookmark): nat { b.createdAt }
  function CommentKey(c: Comment): CommentId { c.id }
  function CommentCreatedAt(c: Comment): nat { c.createdAt }

  /** Row filters for the likes and bookmarks of one user. */
  function LikedBy(u: UserId): Like -> bool { (l: Like) => l.userId == u }
  function BookmarkedBy(u: UserId): Bookmark -> bool { (b: Bookmark) => b.userId == u }

  // Key sets of the tables, read through the table alone so that a store
  // update that leaves a table alone visibly leaves its keys alone.
  function UserIdsOf(users: seq<User>): set<UserId> { set u | u in users :: u.id }
  function PostIdsOf(posts: seq<Post>): set<PostId> { set p | p in posts :: p.id }
  function PostSlugsOf(posts: seq<Post>): set<string> { set p | p in posts :: p.slug }
  function TagIdsOf(tags: seq<Tag>): set<TagId> { set t | t in tags :: t.id }
  function TagNamesOf(tags: seq<Tag>): set<string> { set t | t in tags :: t.name }
  function TagSlugsOf(tags: seq<Tag>): set<string> { set t | t in tags :: t.slug }
  function CommentIdsOf(comments: seq<Comment>): set<CommentId> { set c | c in comments :: c.id }

  function UserIds(s: Store): set<UserId> { UserIdsOf(s.users) }
  function PostIds(s: Store): set<PostId> { PostIdsOf(s.posts) }
  function PostSlugs(s: Store): set<string> { PostSlugsOf(s.posts) }
  function TagIds(s: Store): set<TagId> { TagIdsOf(s.tags) }
  function TagNames(s: Store): set<string> { TagNamesOf(s.tags) }
  function TagSlugs(s: Store): set<string> { TagSlugsOf(s.tags) }
  function CommentIds(s: Store): set<CommentId> { CommentIdsOf(s.comments) }

  predicate HasLike(s: Store, u: UserId, p: PostId) { Like(u, p) in s.likes }
  predicate HasBookmark(s: Store, u: UserId, p: PostId) {
    exists b :: b in s.bookmarks && b.userId == u && b.postId == p
  }

  /** The post row with the given id, as `findUnique({where: {id}})` reads it. */
  function FindPost(s: Store, id: PostId): (r: Option<Post>)
    ensures r.Some? ==> r.value in s.posts && r.value.id == id
    ensures r.None? <==> id !in PostIds(s)
  {
    Find(s.posts, (p: Post) => p.id == id)
  }

  /** The unique keys of the schema. */
  ghost predicate KeysUnique(s: Store) {
    && DistinctBy(s.users, UserKey)
    && DistinctBy(s.users, UsernameKey)
    && DistinctBy(s.posts, PostKey)
    && DistinctBy(s.posts, PostSlugKey)
    && DistinctBy(s.tags, TagKey)
    && DistinctBy(s.tags, TagNameKey)
    && DistinctBy(s.tags, TagSlugKey)
    && DistinctBy(s.likes, LikeKey)
    && DistinctBy(s.bookmarks, BookmarkKey)
    && DistinctBy(s.comments, CommentKey)
  }

  /** Every reference of a post row resolves. */
  ghost predicate PostRefs(s: Store) {
    forall p :: p in s.posts ==> p.authorId in UserIds(s) && p.tags <= TagIds(s)
  }

  /** Every reference of a join row resolves. */
  ghost predicate JoinRefs(s: Store) {
    && (forall a :: a in s.coAuthors ==> a.postId in PostIds(s) && a.userId in UserIds(s))
    && (forall l :: l in s.likes ==> l.userId in UserIds(s) && l.postId in PostIds(s))
    && (forall b :: b in s.bookmarks ==> b.userId in UserIds(s) && b.postId in PostIds(s))
    && (forall c :: c in s.comments ==> c.userId in UserIds(s) && c.postId in PostIds(s))
  }

  /** Follow edges join two existing, distinct users. */
  ghost predicate FollowsWellFormed(s: Store) {
    forall f :: f in s.follows ==> f.follower in UserIds(s) && f.following in UserIds(s) && f.follower != f.following
  }

  /** The integrity constraints of the schema, plus the rule that nobody
      follows themself. */
  ghost predicate Valid(s: Store) {
    KeysUnique(s) && PostRefs(s) && JoinRefs(s) && FollowsWellFormed(s)
  }
}

=== FILE: suggestions.dfy ===
/** The suggestion query: users to recommend to a viewer, found through the
    tags of the posts the viewer liked or bookmarked. The store returns
    "some" rows for an unordered `take`, so the query is described by the
    results it admits, and one admissible choice (the first rows in table
    order) is given as a function. */
module Suggestions {
  import opened Outcomes
  import opened Seqs
  import opened Store

  /** Likes and bookmarks read from the viewer's history. */
  const SampleSize: nat := 10
  /** Users suggested at most. */
  const SuggestionLimit: nat := 4

  /** The names of the tags in `tags` whose id is in `ids`, in table order. */
  function NamesOf(tags: seq<Tag>, ids: set<TagId>): (r: seq<string>)
    ensures forall n :: n in r <==> exists t :: t in tags && t.id in ids && t.name == n
  {
    if tags == [] then []
    else
      var rest := NamesOf(tags[1..], ids);
      var r := (if tags[0].id in ids then [tags[0].name] else []) + rest;
      assert forall t :: t in tags <==> t == tags[0] || t in tags[1..];
      r
  }

  /** The tag names of the post with the given id (none if it is missing). */
  function PostTagNames(s: Store, postId: PostId): seq<string> {
    match FindPost(s, postId)
    case None => []
    case Some(p) => NamesOf(s.tags, p.tags)
  }

  function LikeTagNames(s: Store, likes: seq<Like>): seq<string> {
    if likes == [] then [] else PostTagNames(s, likes[0].postId) + LikeTagNames(s, likes[1..])
  }

  function BookmarkTagNames(s: Store, bookmarks: seq<Bookmark>): seq<string> {
    if bookmarks == [] then [] else PostTagNames(s, bookmarks[0].postId) + BookmarkTagNames(s, bookmarks[1..])
  }

  /** The interest list: the tag names of the sampled liked posts followed by
      those of the sampled bookmarked posts, duplicates included. */
  function InterestedTags(s: Store, likes: seq<Like>, bookmarks: seq<Bookmark>): (r: seq<string>)
    ensures forall n :: n in r <==>
      || (exists l :: l in likes && n in PostTagNames(s, l.postId))
      || (exists b :: b in bookmarks && n in PostTagNames(s, b.postId))
    ensures |r| >= |LikeTagNames(s, likes)| && r[..|LikeTagNames(s, likes)|] == LikeTagNames(s, likes)
  {
    forall n ensures n in LikeTagNames(s, likes) + BookmarkTagNames(s, bookmarks) <==>
      || (exists l :: l in likes && n in PostTagNames(s, l.postId))
      || (exists b :: b in bookmarks && n in PostTagNames(s, b.postId))
    {
      LikeTagNamesMembers(s, likes, n);
      BookmarkTagNamesMembers(s, bookmarks, n);
    }
    LikeTagNames(s, likes) + BookmarkTagNames(s, bookmarks)
  }

  /** The post carries a tag whose name is in `names`. */
  predicate Carries(s: Store, postId: PostId, names: seq<string>) {
    exists p, t :: p in s.posts && p.id == postId && t in s.tags && t.id in p.tags && t.name in names
  }

  /** The user liked or bookmarked a post carrying one of `names`. */
  predicate Engaged(s: Store, u: UserId, names: seq<string>) {
    || (exists l :: l in s.likes && l.userId == u && Carries(s, l.postId, names))
    || (exists b :: b in s.bookmarks && b.userId == u && Carries(s, b.postId, names))
  }

  function Suggestible(s: Store, viewer: UserId, names: seq<string>): User -> bool {
    (u: User) => u.id != viewer && Engaged(s, u.id, names)
  }

  /** Every user the query's `where` clause accepts, in table order. */
  function Candidates(s: Store, viewer: UserId, names: seq<string>): (r: seq<User>)
    ensures forall u :: u in r <==> u in s.users && u.id != viewer && Engaged(s, u.id, names)
  {
    Filter(s.users, Suggestible(s, viewer, names))
  }

  /** What an unordered `take n` may return from `rows`: as many rows as are
      available up to n, each a distinct row of the table. */
  ghost predicate IsSample<T>(sample: seq<T>, rows: seq<T>, n: nat) {
    && |sample| == (if |rows| <= n then |rows| else n)
    && (forall x :: x in sample ==> x in rows)
    && (forall i, j :: 0 <= i < j < |sample| ==> sample[i] != sample[j])
  }

  /** Any admissible result: never the viewer, at most four users, each of
      whom engaged with a post carrying an interesting tag name. */
  lemma SuggestionsSound(s: Store, viewer: UserId, likes: seq<Like>, bookmarks: seq<Bookmark>, r: seq<User>)
    requires IsSample(r, Candidates(s, viewer, InterestedTags(s, likes, bookmarks)), SuggestionLimit)
    ensures |r| <= SuggestionLimit
    ensures forall u :: u in r ==> u in s.users && u.id != viewer
    ensures forall u :: u in r ==> Engaged(s, u.id, InterestedTags(s, likes, bookmarks))
  {
  }

  /** With no interesting tag name nobody is suggested. */
  lemma NoInterestNoSuggestions(s: Store, viewer: UserId, r: seq<User>)
    requires IsSample(r, Candidates(s, viewer, []), SuggestionLimit)
    ensures r == []
  {
    var c := Candidates(s, viewer, []);
    assert multiset(c) == multiset{};
    assert |c| == |multiset(c)|;
  }

  lemma {:induction false} FilterCongruent<T(!new)>(xs: seq<T>, p: T -> bool, q: T -> bool)
    requires forall x :: p(x) == q(x)
    ensures Filter(xs, p) == Filter(xs, q)
  {
    if xs != [] {
      FilterCongruent(xs[1..], p, q);
    }
  }

  /** Only the set of names matters: repeating or reordering names does not
      change who can be suggested. */
  lemma CandidatesDependOnNameSet(s: Store, viewer: UserId, names1: seq<string>, names2: seq<string>)
    requires forall n :: n in names1 <==> n in names2
    ensures Candidates(s, viewer, names1) == Candidates(s, viewer, names2)
  {
    forall p ensures Carries(s, p, names1) == Carries(s, p, names2) {}
    forall u ensures Suggestible(s, viewer, names1)(u) == Suggestible(s, viewer, names2)(u) {}
    FilterCongruent(s.users, Suggestible(s, viewer, names1), Suggestible(s, viewer, names2));
  }

  lemma {:induction false} LikeTagNamesMembers(s: Store, likes: seq<Like>, n: string)
    ensures n in LikeTagNames(s, likes) <==> exists l :: l in likes && n in PostTagNames(s, l.postId)
  {
    if likes != [] {
      LikeTagNamesMembers(s, likes[1..], n);
      assert forall l :: l in likes <==> l == likes[0] || l in likes[1..];
    }
  }

  lemma {:induction false} BookmarkTagNamesMembers(s: Store, bookmarks: seq<Bookmark>, n: string)
    ensures n in BookmarkTagNames(s, bookmarks) <==> exists b :: b in bookmarks && n in PostTagNames(s, b.postId)
  {
    if bookmarks != [] {
      BookmarkTagNamesMembers(s, bookmarks[1..], n);
      assert forall b :: b in bookmarks <==> b == bookmarks[0] || b in bookmarks[1..];
    }
  }

  /** A name is of interest exactly when it names a tag of a sampled liked
      or bookmarked post. */
  lemma InterestedTagsMembers(s: Store, likes: seq<Like>, bookmarks: seq<Bookmark>, n: string)
    ensures n in InterestedTags(s, likes, bookmarks) <==>
      || (exists l :: l in likes && n in PostTagNames(s, l.postId))
      || (exists b :: b in bookmarks && n in PostTagNames(s, b.postId))
  {
    LikeTagNamesMembers(s, likes, n);
    BookmarkTagNamesMembers(s, bookmarks, n);
  }

  /** A viewer without likes or bookmarks is suggested nobody. */
  lemma NoHistoryNoSuggestions(s: Store, viewer: UserId, r: seq<User>)
    requires forall l :: l in s.likes ==> l.userId != viewer
    requires forall b :: b in s.bookmarks ==> b.userId != viewer
    requires IsSample(r, Candidates(s, viewer, InterestedTags(s,
      Take(Filter(s.likes, LikedBy(viewer)), SampleSize),
      Take(Filter(s.bookmarks, BookmarkedBy(viewer)), SampleSize))), SuggestionLimit)
    ensures r == []
  {
    var likes := Filter(s.likes, LikedBy(viewer));
    var bookmarks := Filter(s.bookmarks, BookmarkedBy(viewer));
    assert multiset(likes) == multiset{} && |likes| == |multiset(likes)|;
    assert multiset(bookmarks) == multiset{} && |bookmarks| == |multiset(bookmarks)|;
    NoInterestNoSuggestions(s, viewer, r);
  }

  /** One admissible answer: the first rows in table order. */
  function GetSuggestions(s: Store, viewer: UserId): (r: seq<User>)
    ensures |r| <= SuggestionLimit
    ensures forall u :: u in r ==> u in s.users && u.id != viewer
    ensures forall u :: u in r ==> Engaged(s, u.id, InterestedTags(s,
      Take(Filter(s.likes, LikedBy(viewer)), SampleSize),
      Take(Filter(s.bookmarks, BookmarkedBy(viewer)), SampleSize)))
  {
    var likes := Take(Filter(s.likes, LikedBy(viewer)), SampleSize);
    var bookmarks := Take(Filter(s.bookmarks, BookmarkedBy(viewer)), SampleSize);
    Take(Candidates(s, viewer, InterestedTags(s, likes, bookmarks)), SuggestionLimit)
  }

  lemma TakeIsSample<T, K>(xs: seq<T>, n: nat, key: T -> K)
    requires DistinctBy(xs, key)
    ensures IsSample(Take(xs, n), xs, n)
  {
    var r := Take(xs, n);
    forall i, j | 0 <= i < j < |r| ensures r[i] != r[j] {
      assert key(xs[i]) != key(xs[j]);
    }
  }

  /** The function's answer is one the store may give, for a valid store. */
  lemma GetSuggestionsAdmissible(s: Store, viewer: UserId)
    requires Valid(s)
    ensures var likes := Take(Filter(s.likes, LikedBy(viewer)), SampleSize);
      var bookmarks := Take(Filter(s.bookmarks, BookmarkedBy(viewer)), SampleSize);
      && IsSample(likes, Filter(s.likes, LikedBy(viewer)), SampleSize)
      && IsSample(bookmarks, Filter(s.bookmarks, BookmarkedBy(viewer)), SampleSize)
      && IsSample(GetSuggestions(s, viewer), Candidates(s, viewer, InterestedTags(s, likes, bookmarks)), SuggestionLimit)
  {
    var likes := Take(Filter(s.likes, LikedBy(viewer)), SampleSize);
    var bookmarks := Take(Filter(s.bookmarks, BookmarkedBy(viewer)), SampleSize);
    FilterDistinct(s.likes, LikedBy(viewer), LikeKey);
    TakeIsSample(Filter(s.likes, LikedBy(viewer)), SampleSize, LikeKey);
    FilterDistinct(s.bookmarks, BookmarkedBy(viewer), BookmarkKey);
    TakeIsSample(Filter(s.bookmarks, BookmarkedBy(viewer)), SampleSize, BookmarkKey);
    var names := InterestedTags(s, likes, bookmarks);
    FilterDistinct(s.users, Suggestible(s, viewer, names), UserKey);
    TakeIsSample(Candidates(s, viewer, names), SuggestionLimit, UserKey);
  }
}

=== FILE: tag_form.dfy ===
/** The tag-creation form's input schema, which the create-tag procedure
    reuses as its input validator. */
module TagForm {

  const NameMin: nat := 3
  const DescriptionMin: nat := 10

  datatype Form = Form(name: string, description: string)

  datatype Field = Name | Description

  /** The rejected fields, in declaration order. */
  function Issues(form: Form): (r: seq<Field>)
    ensures Name in r <==> |form.name| < NameMin
    ensures Description in r <==> |form.description| < DescriptionMin
    ensures |r| <= 2 && (|r| == 2 ==> r == [Name, Description])
  {
    (if |form.name| < NameMin then [Name] else [])
    + (if |form.description| < DescriptionMin then [Description] else [])
  }

  predicate Accepts(form: Form) { Issues(form) == [] }

  lemma AcceptsIff(form: Form)
    ensures Accepts(form) <==> |form.name| >= NameMin && |form.description| >= DescriptionMin
  {
    if !Accepts(form) {
      var r := Issues(form);
      assert r[0] in r;
    }
  }
}

=== FILE: tag_router.dfy ===
/** The tag procedures: creation with its duplicate-name check, and the
    posts of a tag looked up by slug. */
module TagRouter {
  import opened Outcomes
  import opened Seqs
  import opened Store
  import TagForm

  /** Creates a tag. The form is validated first; a tag with exactly the same
      name is a conflict; the slug is derived from the name, and the store
      still rejects a taken id or slug. */
  function CreateTag(s: Store, input: TagForm.Form, slugify: string -> string, freshId: TagId): (r: Step<(), Store>)
    ensures r.result.Err? ==> r.store == s
    ensures !TagForm.Accepts(input) ==> r.result == Err(InvalidInput)
    ensures TagForm.Accepts(input) && input.name in TagNames(s) ==> r.result == Err(Conflict)
    ensures r.result.Ok? <==>
      && TagForm.Accepts(input) && input.name !in TagNames(s)
      && freshId !in TagIds(s) && slugify(input.name) !in TagSlugs(s)
    ensures r.result.Ok? ==>
      r.store == s.(tags := s.tags + [Tag(freshId, input.name, slugify(input.name), input.description)])
  {
    if !TagForm.Accepts(input) then Step(Err(InvalidInput), s)
    else if input.name in TagNames(s) then Step(Err(Conflict), s)
    else
      var slug := slugify(input.name);
      if freshId in TagIds(s) || slug in TagSlugs(s) then Step(Err(StoreFailure(UniqueViolation)), s)
      else Step(Ok(()), s.(tags := s.tags + [Tag(freshId, input.name, slug, input.description)]))
  }

  /** Creating a tag adds exactly one row carrying the input's name and
      description, and a name that is taken never gets a second row. */
  lemma CreateTagAddsOneTag(s: Store, input: TagForm.Form, slugify: string -> string, freshId: TagId)
    requires Valid(s)
    ensures var r := CreateTag(s, input, slugify, freshId);
      && Valid(r.store)
      && (r.result.Ok? ==> |r.store.tags| == |s.tags| + 1 && TagNames(r.store) == TagNames(s) + {input.name})
      && |set t | t in r.store.tags && t.name == input.name| <= 1
  {
    var r := CreateTag(s, input, slugify, freshId);
    if r.result.Ok? {
      var t := Tag(freshId, input.name, slugify(input.name), input.description);
      DistinctByAppend(s.tags, t, TagKey);
      DistinctByAppend(s.tags, t, TagNameKey);
      DistinctByAppend(s.tags, t, TagSlugKey);
      assert TagIds(r.store) == TagIds(s) + {freshId};
      assert KeysUnique(r.store) && PostRefs(r.store) && JoinRefs(r.store) && FollowsWellFormed(r.store);
    }
    AtMostOneTagNamed(r.store, input.name);
  }

  lemma AtMostOneTagNamed(s: Store, name: string)
    requires DistinctBy(s.tags, TagNameKey)
    ensures |set t | t in s.tags && t.name == name| <= 1
  {
    var named := set t | t in s.tags && t.name == name;
    if named != {} {
      var a :| a in named;
      var i :| 0 <= i < |s.tags| && s.tags[i] == a;
      forall b | b in named ensures b == a {
        var j :| 0 <= j < |s.tags| && s.tags[j] == b;
        assert TagNameKey(s.tags[i]) == TagNameKey(s.tags[j]);
        assert i == j;
      }
      assert named == {a};
    }
  }

  function SlugIs(slug: string): Tag -> bool { (t: Tag) => t.slug == slug }
  function Carrying(tagId: TagId): Post -> bool { (p: Post) => tagId in p.tags }

  /** The posts of the tag whose slug is `tagname`, or None when no tag has
      that slug. */
  function GetPostWithSameTags(s: Store, tagname: string): (r: Option<seq<Post>>)
    ensures r.None? <==> tagname !in TagSlugs(s)
    ensures r.Some? ==>
      (exists t :: t in s.tags && t.slug == tagname && (forall p :: p in r.value <==> p in s.posts && t.id in p.tags))
  {
    match Find(s.tags, SlugIs(tagname))
    case None => None
    case Some(t) => Some(Filter(s.posts, Carrying(t.id)))
  }

  /** In a valid store the slug names one tag, so the answer is exactly the
      posts carrying that tag. */
  lemma PostsOfTagBySlug(s: Store, t: Tag)
    requires Valid(s)
    requires t in s.tags
    ensures GetPostWithSameTags(s, t.slug) == Some(Filter(s.posts, Carrying(t.id)))
  {
    var found := Find(s.tags, SlugIs(t.slug));
    var u := found.value;
    var i :| 0 <= i < |s.tags| && s.tags[i] == t;
    var j :| 0 <= j < |s.tags| && s.tags[j] == u;
    assert TagSlugKey(s.tags[i]) == TagSlugKey(s.tags[j]);
    assert i == j;
  }
}

=== FILE: user_router.dfy ===
/** The user procedures: avatar upload (its data-URI payload extraction),
    follow and unfollow. */
module UserRouter {
  import opened Outcomes
  import opened Seqs
  import opened Store

  // ------------------------------------------------------------- avatars

  /** The characters a regular expression's `.` does not match. */
  predicate IsLineTerminator(c: char) {
    c == '\n' || c == '\r' || c == '\U{2028}' || c == '\U{2029}'
  }

  /** Length of the first line: the position of the first line terminator,
      or the whole length when there is none. */
  function FirstLineLength(s: string): (n: nat)
    ensures n <= |s|
    ensures forall k :: 0 <= k < n ==> !IsLineTerminator(s[k])
    ensures n < |s| ==> IsLineTerminator(s[n])
  {
    if s == [] || IsLineTerminator(s[0]) then 0 else 1 + FirstLineLength(s[1..])
  }

  /** The last comma at a position in [1, end), if any. */
  function LastComma(s: string, end: nat): (r: Option<nat>)
    requires end <= |s|
    ensures r.Some? ==> 1 <= r.value < end && s[r.value] == ','
    ensures r.Some? ==> forall k :: r.value < k < end ==> s[k] != ','
    ensures r.None? ==> forall k :: 1 <= k < end ==> s[k] != ','
    decreases end
  {
    if end <= 1 then None
    else if s[end - 1] == ',' then Some(end - 1)
    else LastComma(s, end - 1)
  }

  /** The base64 payload of a data URI: the input with the match of the
      pattern `^.+,` removed. The pattern needs at least one character before
      its comma, cannot cross a line terminator, and is greedy, so it removes
      everything up to the last comma of the first line, provided that comma
      is not the very first character. */
  function AvatarPayload(dataUri: string): (r: string)
    ensures |r| <= |dataUri| && r == dataUri[|dataUri| - |r|..]
    ensures (forall k :: 1 <= k < FirstLineLength(dataUri) ==> dataUri[k] != ',') <==> r == dataUri
    ensures r != dataUri ==>
      var k := |dataUri| - |r| - 1;
      && 1 <= k < FirstLineLength(dataUri) && dataUri[k] == ','
      && forall j :: k < j < FirstLineLength(dataUri) ==> dataUri[j] != ','
  {
    match LastComma(dataUri, FirstLineLength(dataUri))
    case None => dataUri
    case Some(k) => dataUri[k + 1..]
  }

  /** A data URI with one comma, preceded by a non-empty header on the first
      line, yields exactly the text after the comma. */
  lemma SingleCommaPayload(header: string, payload: string)
    requires |header| >= 1
    requires forall c :: c in header ==> c != ',' && !IsLineTerminator(c)
    requires ',' !in payload
    ensures AvatarPayload(header + "," + payload) == payload
  {
    var s := header + "," + payload;
    var n := FirstLineLength(s);
    assert forall k :: 0 <= k < |header| ==> s[k] == header[k] && s[k] in header;
    assert n >= |header|;
    assert s[|header|] == ',';
    forall j | |header| < j < n ensures s[j] != ',' {
      assert s[j] == payload[j - |header| - 1];
    }
    assert s[|header| + 1..] == payload;
  }

  /** Input without a comma is returned unchanged. */
  lemma NoCommaUnchanged(dataUri: string)
    requires ',' !in dataUri
    ensures AvatarPayload(dataUri) == dataUri
  {
  }

  /** A comma in first position is not removed: the pattern needs a
      character before it. */
  lemma LeadingCommaKept()
    ensures AvatarPayload(",AAAA") == ",AAAA"
  {
    assert FirstLineLength(",AAAA") == 5;
  }

  datatype AvatarInput = AvatarInput(imageAsDataUri: string, mimetype: string, username: string)

  /** Object-store path the avatar is written to. */
  function AvatarPath(username: string): string {
    "avatars/" + username + ".png"
  }

  /** Uploads the avatar and records its public address on the session
      user. `isDataUri` is the input validator; `upload` stands for the
      object-store round trip (decode the payload, write it at the path,
      read back the public address), returning None when the store reports
      an error. */
  function UploadAvatar(
    s: Store, actor: UserId, input: AvatarInput,
    isDataUri: string -> bool, upload: (string, string) -> Option<string>): (r: Step<(), Store>)
    ensures r.result.Err? ==> r.store == s
    ensures !isDataUri(input.imageAsDataUri) ==> r.result == Err(InvalidInput)
    ensures isDataUri(input.imageAsDataUri) && upload(AvatarPath(input.username), AvatarPayload(input.imageAsDataUri)).None?
      ==> r.result == Err(InternalServerError)
    ensures r.result.Ok? <==>
      && isDataUri(input.imageAsDataUri)
      && upload(AvatarPath(input.username), AvatarPayload(input.imageAsDataUri)).Some?
      && actor in UserIds(s)
    ensures r.result.Ok? ==>
      && r.store == s.(users := r.store.users)
      && |r.store.users| == |s.users|
      && forall i :: 0 <= i < |s.users| ==>
           && r.store.users[i].(image := s.users[i].image) == s.users[i]
           && (s.users[i].id == actor ==>
                 r.store.users[i].image == upload(AvatarPath(input.username), AvatarPayload(input.imageAsDataUri)))
           && (s.users[i].id != actor ==> r.store.users[i] == s.users[i])
  {
    if !isDataUri(input.imageAsDataUri) then Step(Err(InvalidInput), s)
    else
      match upload(AvatarPath(input.username), AvatarPayload(input.imageAsDataUri))
      case None => Step(Err(InternalServerError), s)
      case Some(url) =>
        if actor !in UserIds(s) then Step(Err(StoreFailure(RecordNotFound)), s)
        else Step(Ok(()), s.(users := MapWhere(s.users, IsUser(actor), WithImage(url))))
  }

  function IsUser(id: UserId): User -> bool { (u: User) => u.id == id }
  function WithImage(url: string): User -> User { (u: User) => u.(image := Some(url)) }

  // ---------------------------------------------------------- social graph

  /** Makes the session user follow `target`. Following oneself is refused;
      following someone already followed leaves the edges as they are. */
  function FollowUser(s: Store, actor: UserId, target: UserId): (r: Step<(), Store>)
    ensures r.result.Err? ==> r.store == s
    ensures target == actor ==> r.result == Err(BadRequest)
    ensures r.result.Ok? <==> target != actor && actor in UserIds(s) && target in UserIds(s)
    ensures r.result.Ok? ==> Follow(actor, target) in r.store.follows
    ensures forall e :: e != Follow(actor, target) ==> (e in r.store.follows <==> e in s.follows)
    ensures r.store == s.(follows := r.store.follows)
  {
    if target == actor then Step(Err(BadRequest), s)
    else if actor !in UserIds(s) || target !in UserIds(s) then Step(Err(StoreFailure(RecordNotFound)), s)
    else Step(Ok(()), s.(follows := s.follows + {Follow(actor, target)}))
  }

  /** Removes the edge from the session user to `target`; absent edges are
      not an error. */
  function UnfollowUser(s: Store, actor: UserId, target: UserId): (r: Step<(), Store>)
    ensures r.result.Err? ==> r == Step(Err(StoreFailure(RecordNotFound)), s)
    ensures r.result.Ok? <==> actor in UserIds(s)
    ensures r.result.Ok? ==> Follow(actor, target) !in r.store.follows
    ensures forall e :: e != Follow(actor, target) ==> (e in r.store.follows <==> e in s.follows)
    ensures r.store == s.(follows := r.store.follows)
  {
    if actor !in UserIds(s) then Step(Err(StoreFailure(RecordNotFound)), s)
    else Step(Ok(()), s.(follows := s.follows - {Follow(actor, target)}))
  }

  /** Following an already-followed user changes nothing. */
  lemma FollowAgainIsNoOp(s: Store, actor: UserId, target: UserId)
    requires Follow(actor, target) in s.follows
    requires target != actor && actor in UserIds(s) && target in UserIds(s)
    ensures FollowUser(s, actor, target) == Step(Ok(()), s)
  {
    assert s.follows + {Follow(actor, target)} == s.follows;
  }

  /** Unfollowing undoes a follow that created a new edge. */
  lemma UnfollowUndoesFollow(s: Store, actor: UserId, target: UserId)
    requires Follow(actor, target) !in s.follows
    requires FollowUser(s, actor, target).result.Ok?
    ensures UnfollowUser(FollowUser(s, actor, target).store, actor, target) == Step(Ok(()), s)
  {
    var s1 := FollowUser(s, actor, target).store;
    assert s1.follows - {Follow(actor, target)} == s.follows;
  }

  lemma FollowUserKeepsValid(s: Store, actor: UserId, target: UserId)
    requires Valid(s)
    ensures Valid(FollowUser(s, actor, target).store)
  {
    var s' := FollowUser(s, actor, target).store;
    assert KeysUnique(s') && PostRefs(s') && JoinRefs(s');
  }

  lemma UnfollowUserKeepsValid(s: Store, actor: UserId, target: UserId)
    requires Valid(s)
    ensures Valid(UnfollowUser(s, actor, target).store)
  {
    var s' := UnfollowUser(s, actor, target).store;
    assert KeysUnique(s') && PostRefs(s') && JoinRefs(s');
  }

  /** Replacing the user rows by rows with the same, still distinct, ids
      keeps the store valid. */
  lemma ReplaceUsersKeepsValid(s: Store, users: seq<User>)
    requires Valid(s)
    requires DistinctBy(users, UserKey) && DistinctBy(users, UsernameKey)
    requires UserIdsOf(users) == UserIdsOf(s.users)
    ensures Valid(s.(users := users))
  {
    var s' := s.(users := users);
    assert UserIds(s') == UserIds(s);
    assert KeysUnique(s');
    assert PostRefs(s');
    assert JoinRefs(s');
    assert FollowsWellFormed(s');
  }

  lemma UploadAvatarKeepsValid(
    s: Store, actor: UserId, input: AvatarInput,
    isDataUri: string -> bool, upload: (string, string) -> Option<string>)
    requires Valid(s)
    ensures Valid(UploadAvatar(s, actor, input, isDataUri, upload).store)
  {
    var r := UploadAvatar(s, actor, input, isDataUri, upload);
    if r.result.Ok? {
      var url := upload(AvatarPath(input.username), AvatarPayload(input.imageAsDataUri)).value;
      var users := MapWhere(s.users, IsUser(actor), WithImage(url));
      assert r.store == s.(users := users);
      MapWhereKeepsKeys(s.users, IsUser(actor), WithImage(url), UserKey);
      MapWhereKeepsKeys(s.users, IsUser(actor), WithImage(url), UsernameKey);
      assert UserIdsOf(users) == UserIdsOf(s.users) by {
        assert UserIdsOf(users) == (set x | x in users :: UserKey(x));
        assert UserIdsOf(s.users) == (set x | x in s.users :: UserKey(x));
      }
      ReplaceUsersKeepsValid(s, users);
    }
  }
}

=== FILE: write_form.dfy ===
/** The post-writing form: the input schema the server reuses for post
    creation, and the list rules the form applies to the selected tags
    before submitting. */
module WriteForm {
  import opened Outcomes
  import opened Seqs
  import opened Store

  const TitleMin: nat := 10
  const DescriptionMin: nat := 60
  const TextMin: nat := 100
  const HtmlMin: nat := 100

  datatype Form = Form(title: string, description: string, text: Option<string>, html: string)

  /** The schema's fields, in declaration order. */
  datatype Field = Title | Description | Text | Html

  function FieldRank(f: Field): nat {
    match f
    case Title => 0
    case Description => 1
    case Text => 2
    case Html => 3
  }

  /** The fields the schema rejects, each reported once, in declaration order. */
  function Issues(form: Form): (r: seq<Field>)
    ensures Title in r <==> |form.title| < TitleMin
    ensures Description in r <==> |form.description| < DescriptionMin
    ensures Text in r <==> form.text.Some? && |form.text.value| < TextMin
    ensures Html in r <==> |form.html| < HtmlMin
    ensures forall i, j :: 0 <= i < j < |r| ==> FieldRank(r[i]) < FieldRank(r[j])
  {
    (if |form.title| < TitleMin then [Title] else [])
    + (if |form.description| < DescriptionMin then [Description] else [])
    + (match form.text case Some(t) => if |t| < TextMin then [Text] else [] case None => [])
    + (if |form.html| < HtmlMin then [Html] else [])
  }

  predicate Accepts(form: Form) { Issues(form) == [] }

  /** The schema accepts exactly the forms meeting every minimum length, with
      the plain-text body allowed to be absent. */
  lemma AcceptsIff(form: Form)
    ensures Accepts(form) <==>
      && |form.title| >= TitleMin
      && |form.description| >= DescriptionMin
      && (form.text.None? || |form.text.value| >= TextMin)
      && |form.html| >= HtmlMin
  {
    if !Accepts(form) {
      var r := Issues(form);
      assert r[0] in r;
    }
  }

  /** A tag chip as the form holds it. */
  datatype SelectedTag = SelectedTag(id: TagId, name: string)

  /** What the form hands to the create-post procedure: the validated fields
      and, only when at least one tag is selected, the selected tag ids. */
  datatype Submission = Submission(form: Form, tagsIds: Option<seq<TagId>>)

  function Submit(form: Form, selected: seq<SelectedTag>): (r: Submission)
    ensures r.form == form
    ensures r.tagsIds.Some? <==> |selected| > 0
    ensures r.tagsIds.Some? ==>
      (|r.tagsIds.value| == |selected| &&
       forall i :: 0 <= i < |selected| ==> r.tagsIds.value[i] == selected[i].id)
  {
    if |selected| > 0 then Submission(form, Some(seq(|selected|, i requires 0 <= i < |selected| => selected[i].id)))
    else Submission(form, None)
  }

  /** Clicking a chip's close mark: drop every chip with that id. */
  function RemoveSelected(selected: seq<SelectedTag>, id: TagId): (r: seq<SelectedTag>)
    ensures forall t :: t in r ==> t.id != id
    ensures forall t :: t in selected && t.id != id ==> t in r
    ensures forall t: SelectedTag :: t.id != id ==> multiset(r)[t] == multiset(selected)[t]
  {
    Filter(selected, (t: SelectedTag) => t.id != id)
  }

  /** Removal acts chip by chip, so the remaining chips keep their order. */
  lemma RemoveSelectedAppend(a: seq<SelectedTag>, b: seq<SelectedTag>, id: TagId)
    ensures RemoveSelected(a + b, id) == RemoveSelected(a, id) + RemoveSelected(b, id)
  {
    FilterAppend(a, b, (t: SelectedTag) => t.id != id);
  }

  lemma {:induction false} RemoveSelectedAbsent(selected: seq<SelectedTag>, id: TagId)
    requires forall t :: t in selected ==> t.id != id
    ensures RemoveSelected(selected, id) == selected
  {
    if selected != [] {
      assert selected == [selected[0]] + selected[1..];
      RemoveSelectedAppend([selected[0]], selected[1..], id);
      RemoveSelectedAbsent(selected[1..], id);
    }
  }

  lemma RemoveSelectedIdempotent(selected: seq<SelectedTag>, id: TagId)
    ensures RemoveSelected(RemoveSelected(selected, id), id) == RemoveSelected(selected, id)
  {
    RemoveSelectedAbsent(RemoveSelected(selected, id), id);
  }
}
